=== FILE: README.md ===
# Obelisk solver — a Dafny model of the puzzle engine

The obelisk puzzle stacks nine square tiles into a column. Five tiles are brown and four are green, and the two colours alternate from layer to layer. Each tile has up to twelve holes around its rim. Pegs of length 1, 2 and 3 pass through the holes. The pegs must cover every hole of every layer exactly, and no peg may stick out of the top of the stack.

The solver tries tiles and pegs by backtracking. This project models its engine and proves properties of the model:

- **Tile transforms.** The quarter turn and the two reflections of a tile's hole pattern (`tiles.dfy`). `symmetries.dfy` covers the orientations the rotation loop of the tile search walks through.
- **Coverage grid.** Nine rows of twelve cells. Each cell holds 0 or the length of the peg through it (`coverage.dfy`). The model keeps two invariants on it: every column is made of whole pegs, and each inventory counter equals the number of pegs of its length in the grid.
- **Classifier.** `check_valid` reads the top tile and the grid and returns INVALID, VALID or SOLVED (`validity.dfy`).
- **Search.** The mutually recursive peg search and tile search (`search.dfy`), running on an explicit state record (`puzzle.dfy`). The record holds the catalog with its used flags, the stack, the peg inventory and the grid.
  - Every frame that fails returns the state it was given.
  - A frame that succeeds returns a full solution that extends that state.
  - Termination follows from two measures: the height left to fill, and the pegs left in the box.
- **Catalog.** The tile catalog set up by `main` (`catalog.dfy`), and the drawing of a layer's hole positions (`render.dfy`).

Two behaviours of the code that the model keeps:

- **Completed layer below full height.** Such a layer is VALID only when some peg already reaches into the next layer (obelisk_solver.cpp:281-285). When the next layer is still empty the classifier returns INVALID.
- **Catalog orientation.** A pushed tile is a copy, and the rotation loop turns the copy (obelisk_solver.cpp:358, 372, 396). The catalog pattern is therefore never altered. `Search.Push`, `Search.Pop` and `Puzzle.Extends` state this, and `Symmetries.CycleIsIdentity` shows that the four loop iterations bring the copy back to its pushed orientation.

## Model

| member | source | states |
|---|---|---|
| Tiles.Rotate | obelisk_solver.cpp:25-37 | after a quarter turn, position i shows the hole that was at position i + 9 (mod 12) |
| Tiles.RotateMovesHole | obelisk_solver.cpp:25-37 | a quarter turn moves the hole at position i to position (i + 3) mod 12 |
| Tiles.RotatePermutes | obelisk_solver.cpp:25-37 | a quarter turn permutes the positions: the multiset of the pattern and its hole count are unchanged |
| Tiles.FourTurnsIdentity | obelisk_solver.cpp:25-37 | four quarter turns give back the original pattern |
| Tiles.Flip | obelisk_solver.cpp:39-54 | after a reflection, position i shows the hole of its mirror position, for both axes |
| Tiles.VerticalFlip | obelisk_solver.cpp:41-46 | the five swaps of the vertical reflection yield the mirror image across the vertical axis, written out position by position |
| Tiles.HorizontalFlip | obelisk_solver.cpp:47-53 | the five swaps of the horizontal reflection yield the mirror image across the horizontal axis, written out position by position |
| Tiles.FlipPermutes | obelisk_solver.cpp:39-54 | a reflection permutes the positions and keeps the hole count |
| Tiles.FlipInvolution | obelisk_solver.cpp:39-54 | reflecting twice across the same axis gives back the original pattern |
| Tiles.FlipFixedPositions | obelisk_solver.cpp:39-54 | the vertical reflection leaves exactly positions 1 and 7 in place; the horizontal one leaves exactly 4 and 10 |
| Tiles.SourcesModular | obelisk_solver.cpp:25-54 | the quarter turn reads position (i + 9) mod 12, the vertical reflection (2 - i) mod 12 and the horizontal one (8 - i) mod 12 |
| Symmetries.CycleIsIdentity | obelisk_solver.cpp:359-397 | the four iterations of the rotation loop, each a reflection with alternating axis followed by a quarter turn, compose to the identity |
| Symmetries.TriedAreOrientations | obelisk_solver.cpp:359-397 | the eight patterns the loop hands to the classifier are exactly the four rotations and the four rotations of the mirror image of the pushed pattern |
| Symmetries.TriedMatch | obelisk_solver.cpp:359-397 | which rotation or mirrored rotation each of the eight tried patterns is |
| Symmetries.StartIsOrientation | obelisk_solver.cpp:359-396 | the orientation each iteration starts from is one of the eight orientations of the pushed tile |
| Symmetries.ReflectionIsOrientation | obelisk_solver.cpp:372-384 | the reflection each iteration tries is one of the eight orientations of the pushed tile |
| Symmetries.StepIsDiagonalReflection | obelisk_solver.cpp:372-396 | one iteration of the rotation loop (the reflection, then the quarter turn) is a single reflection across a diagonal of the square: on even iterations positions i and 5 - i trade places, on odd ones i and 11 - i (mod 12) |
| Symmetries.StepsClosedForm | obelisk_solver.cpp:359-397 | after n iterations of the loop the pushed tile is turned 3n positions when n is even, and reflected so that positions i and 3n + 2 - i trade places when n is odd (mod 12) |
| Coverage.Empty | obelisk_solver.cpp:70-86 | the initial grid has nine rows of twelve cells, all empty |
| Coverage.Paint | obelisk_solver.cpp:308-333 | writing a peg changes exactly the cells of its column from its first layer upward, for its length, and nothing else |
| Coverage.ClearAbove | obelisk_solver.cpp:305 | when every covered cell above the stack continues the same peg from the layer below, an open hole on the top layer has only empty cells above it, so every write of a new peg lands on empty cells |
| Coverage.RunAddsPeg | obelisk_solver.cpp:308-333 | a peg written into a column that is empty from its first layer up leaves the column made of whole pegs, with one more peg of its length and no other count changed |
| Coverage.PaintAddsPeg | obelisk_solver.cpp:308-333 | the same for the whole grid: every column stays made of whole pegs, and the grid gains exactly one peg of that length |
| Coverage.PaintKeepsSupported | obelisk_solver.cpp:306-333 | a peg placed from the top layer upward starts below the layer above the stack, so every covered cell above the stack still continues the same peg from the layer below |
| Coverage.EmptyHasNoPegs | obelisk_solver.cpp:63-86 | the initial grid is made of whole pegs and holds none of any length, matching the zero counters |
| Validity.CheckValid | obelisk_solver.cpp:264-290 | SOLVED iff the top tile fits its row, every hole is covered and the stack is 9 high. VALID iff it fits and either every hole is covered below full height and some peg reaches into the next layer, or some hole is open outside the peg phase. Any covered position without a hole gives INVALID |
| Puzzle.Place | obelisk_solver.cpp:307-330 | exactly the len cells of column i from the top layer upward take the value len; the counter of length len goes up by one, stays within its capacity, and the other counters, the catalog and the stack are unchanged |
| Puzzle.Lift | obelisk_solver.cpp:313-334 | taking a peg back out empties exactly its cells of its column from the top layer upward, gives one peg of its length back to the box, and changes no other counter, cell or tile |
| Puzzle.LiftUndoesPlace | obelisk_solver.cpp:313-334 | lifting a peg back out (decrement and clear its cells) restores exactly the state before it was placed |
| Puzzle.PlaceKeepsConsistent | obelisk_solver.cpp:305-333 | a placement the peg search makes keeps the columns made of whole pegs and each counter equal to the number of pegs of its length in the grid |
| Puzzle.PlaceKeepsReady | obelisk_solver.cpp:304-335 | under the peg search's guards (open hole, a peg left, size + L - 1 <= 9), a placement keeps the top tile's fit, keeps the lower layers complete and extends the state |
| Puzzle.SolutionStacksEveryTile | obelisk_solver.cpp:276-279 | with five brown and four green tiles, a solution stacks every catalog tile, each exactly once and on a layer of its own colour |
| Search.Push | obelisk_solver.cpp:357-358 | the stack grows by one layer holding tile i in its catalog pattern, the layers below are kept, tile i is the only flag newly set to used, and no catalog pattern, cell or counter changes |
| Search.Reorient | obelisk_solver.cpp:372-396 | turning or reflecting the top tile in place shows the new orientation on top, keeps the same tile there and the layers below it, and changes no catalog entry, cell or counter |
| Search.Pop | obelisk_solver.cpp:399-400 | popping removes exactly the top layer, tile i is the only flag cleared, and no catalog pattern, cell or counter changes |
| Search.PushKeepsConsistent | obelisk_solver.cpp:353-358 | pushing an unused tile of the layer's group, in any of its orientations, marks it used, keeps every invariant, leaves grid and inventory alone, and extends the state |
| Search.PopUndoesPush | obelisk_solver.cpp:399-400 | popping the pushed tile and marking it unused restores the state before the push, whatever orientation it ended in |
| Search.TryPegs | obelisk_solver.cpp:295-348 | peg search: on success, a full solution extending the entry state; on failure, the entry state itself, with the INVALID path restoring the entry snapshot |
| Search.TryHole | obelisk_solver.cpp:304-336 | choices at one hole, lengths 3, 2, 1 under their guards: a solution extending the state, or the state unchanged |
| Search.TryPeg | obelisk_solver.cpp:306-335 | one placement, the recursive search and the undo: a solution extending the state, or the state unchanged |
| Search.TryTiles | obelisk_solver.cpp:350-402 | tile search over the unused tiles of the layer's group: a solution extending the entry state, or the entry state with the stack depth as on entry |
| Search.TryTile | obelisk_solver.cpp:353-400 | one candidate tile: push, four rotations, pop and unmark; a solution extending the state, or the state unchanged |
| Search.TryTurn | obelisk_solver.cpp:359-395 | one iteration of the rotation loop: the starting orientation, then its reflection; on failure the tile is left pushed in the reflected orientation |
| Search.Attempt | obelisk_solver.cpp:361-393 | classify one pushed orientation; SOLVED ends, VALID hands over to the peg search on the new top, anything else leaves the pushed state |
| Search.InitialReady | obelisk_solver.cpp:63-93 | the initial state (no tile used, empty stack, zero counters, empty grid) satisfies every invariant the tile search needs |
| Search.FullBox | obelisk_solver.cpp:68 | the peg box before the search: no peg used, capacities 1, 9 and 4 for lengths 1, 2 and 3, so 14 pegs in the box, every counter within its capacity |
| Search.Initial | obelisk_solver.cpp:63-93 | the state before the search: both catalog groups with every tile unused, an empty stack, the full peg box and an all-zero grid |
| Search.Solve | obelisk_solver.cpp:404-406 | a found state is a solution whose catalog is the given one and which extends the initial state, so its peg capacities are those of the box (1, 9, 4) and no more pegs are used than the box holds; otherwise the initial state comes back unchanged |
| Catalog.CatalogFits | obelisk_solver.cpp:99-200 | the catalog has 5 brown and 4 green tiles, and their 31 holes (counted by `Tiles.HoleCount`, the count the transforms preserve) are exactly the 31 cells the full peg box covers (1·1 + 9·2 + 4·3) |
| Catalog.CatalogStartsWithHole | obelisk_solver.cpp:95-200 | every catalog tile is given with a hole at position 0 |
| Catalog.CatalogLowest | obelisk_solver.cpp:95-200 | every catalog tile is given in the orientation that puts its holes lowest: compared position by position, holes first, it comes no later than any of its four rotations and four mirrored rotations |
| Render.CellOf | obelisk_solver.cpp:224-236 | the table of drawing cells: every hole position is drawn on a non-corner border cell of the 5 × 5 drawing |
| Render.PositionAt | obelisk_solver.cpp:238-249 | the drawing's arithmetic maps every non-corner border cell to a hole position |
| Render.PositionRoundTrip | obelisk_solver.cpp:224-249 | the arithmetic inverts the table: the cell of position p shows position p |
| Render.CellRoundTrip | obelisk_solver.cpp:224-249 | the table inverts the arithmetic: each border cell shows one position, so none is drawn twice or left out |

## Left out

- Console output: `print_solution` (obelisk_solver.cpp:202-262) is not modelled apart from its cell-to-position arithmetic. It also empties the stack, and it is called from inside `check_valid` (line 278). In the model, SOLVED is a pure classification with no side effect.
- `on_green` (obelisk_solver.cpp:91, 353, 367, 378, 390, 400): the model replaces it with depth parity, so layer k takes its tile from group k mod 2. The source flips the flag on every VALID classification of the tile search (lines 367, 378, 390) and never flips it back, so after a failed branch it can name the wrong group. The model does not reproduce three consequences of that:
  - the bound of the tile loop at line 353 is re-read after every toggle, so the loop can run over the wrong group's size;
  - the unmark at line 400 can clear a flag in the other group;
  - when the loop runs over the five brown tiles, line 400 can read `tile_groups[1][4]`, past the end of the four-tile green group.
- `on_pegs` (obelisk_solver.cpp:92, 296, 351, 288): the model passes it to `Validity.CheckValid` as a parameter. The peg search passes true and the tile search passes false. In the source it is one global, and it goes stale in both directions:
  - The peg search sets it on entry, and nothing resets it when a nested peg search returns. Later classifications in the same `try_tiles` frame can therefore see it still set.
  - `try_tiles` clears it on entry, and nothing sets it again when a nested tile search returns into a peg search. Example: a peg frame's last choice completes its layer; the nested peg search finds a peg reaching the next layer, classifies VALID and calls `try_tiles`, which finds nothing and returns with the flag cleared. The frame then removes its peg, and its own check at line 339 sees an open hole with the flag cleared. Line 288 then answers VALID, and `try_tiles` stacks a tile over the open hole. SOLVED later checks only the top layer (lines 267-279), so the program can report a stack with an uncovered hole. `Search.TryPegs` always classifies with the flag set.
- The global `solved` flag and the early returns it triggers are modelled as the `solved` result that every search method returns at once.
- The `memcpy` snapshots (obelisk_solver.cpp:298-302, 343-344) are modelled as value copies of the state.
- `uint8_t` counters and indices are unbounded naturals. No value exceeds 14, so nothing wraps.
- Stack entries hold a copy of the tile in the source. In the model a layer records the catalog index and the orientation shown, so that where each layer came from can be stated.
- `main`, `set_browns` and `set_greens` (obelisk_solver.cpp:99-200, 408-418): `Search.Solve` takes the two catalog groups as parameters, and the source's catalog is the pair of constants in `Catalog`. Whether that catalog has a solution is not established; it would need the full exhaustive search.
- Search.Solve: states soundness only. A state it returns is a solution, and on failure it returns the initial state. It does not state that a solution is found whenever one exists, nor which solution comes first in search order.
- Search.TryTiles: same limit. No completeness or first-solution property is stated; the same holds for the other search methods.

=== FILE: catalog.dfy ===
/** The tiles of the puzzle as the program sets them up: five brown and
    four green tiles, each given in the orientation that puts its holes at
    the lowest positions. */
module Catalog {
  import opened Sizes
  import opened Tiles
  import opened Symmetries

  /** The brown tiles: single hole, triangle, rectangle, and two identical
      footprints. */
  const Browns: seq<Pattern> := [
    [true, false, false,  false, false, false,  false, false, false,  false, false, false],
    [true, false, false,  false, true, false,  false, false, true,  false, false, false],
    [true, false, true,  false, false, false,  true, false, true,  false, false, false],
    [true, false, true,  false, true, false,  false, false, true,  false, false, false],
    [true, false, true,  false, true, false,  false, false, true,  false, false, false]
  ]

  /** The green tiles: diagonal, flipped gamma, skewed trapezoid, hexagon. */
  const Greens: seq<Pattern> := [
    [true, false, false,  false, false, false,  true, false, false,  false, false, false],
    [true, false, true,  false, false, false,  true, false, false,  false, false, false],
    [true, false, true,  false, true, false,  true, false, false,  false, false, false],
    [true, false, true,  false, true, false,  true, false, true,  false, true, false]
  ]

  /** Holes of a pattern from position i on, counted position by
      position. */
  function HolesFrom(p: seq<bool>, i: nat): nat
    decreases |p| - i
  {
    if i >= |p| then 0 else (if p[i] then 1 else 0) + HolesFrom(p, i + 1)
  }

  /** Holes of a list of patterns from entry n on. */
  function TotalHoles(ps: seq<Pattern>, n: nat): nat
    decreases |ps| - n
  {
    if n >= |ps| then 0 else HoleCount(ps[n]) + TotalHoles(ps, n + 1)
  }

  /** Counting position by position agrees with the multiset count. */
  lemma {:induction false} HolesCounted(p: seq<bool>, i: nat)
    requires i <= |p|
    ensures HolesFrom(p, i) == multiset(p[i..])[true]
    decreases |p| - i
  {
    if i < |p| {
      HolesCounted(p, i + 1);
      assert p[i..] == [p[i]] + p[i + 1..];
    }
  }

  /** Cells a full peg box covers: one cell per peg of length 1, two per peg
      of length 2, three per peg of length 3. */
  function PegCells(): nat
  {
    OnePegs * 1 + TwoPegs * 2 + ThreePegs * 3
  }

  /** The catalog matches the tile counts, and the holes of all nine tiles
      are exactly as many as the cells the full peg box covers (31). */
  lemma CatalogFits()
    ensures |Browns| == BrownTiles && |Greens| == GreenTiles
    ensures TotalHoles(Browns, 0) + TotalHoles(Greens, 0) == PegCells() == 31
  {
    BrownHoles();
    GreenHoles();
  }

  /** The brown tiles have 1, 3, 4, 4 and 4 holes. */
  lemma BrownHoles()
    ensures TotalHoles(Browns, 0) == 16
  {
    CountedHoles(Browns[0], 1);
    CountedHoles(Browns[1], 3);
    CountedHoles(Browns[2], 4);
    CountedHoles(Browns[3], 4);
    CountedHoles(Browns[4], 4);
  }

  /** The green tiles have 2, 3, 4 and 6 holes. */
  lemma GreenHoles()
    ensures TotalHoles(Greens, 0) == 15
  {
    CountedHoles(Greens[0], 2);
    CountedHoles(Greens[1], 3);
    CountedHoles(Greens[2], 4);
    CountedHoles(Greens[3], 6);
  }

  /** A pattern whose holes, counted position by position, number c has c
      holes. */
  lemma CountedHoles(p: Pattern, c: nat)
    requires HolesFrom(p, 0) == c
    ensures HoleCount(p) == c
  {
    HolesCounted(p, 0);
    assert p[0..] == p;
  }

  /** Every catalog tile has a hole at position 0. */
  lemma CatalogStartsWithHole()
    ensures forall t :: 0 <= t < |Browns| ==> Browns[t][0]
    ensures forall t :: 0 <= t < |Greens| ==> Greens[t][0]
  {
  }

  /** Pattern a puts its holes at lower positions than b does: comparing
      position by position from k on, a has a hole where b first differs,
      or the two do not differ at all. */
  predicate HolesFirstFrom(a: Pattern, b: Pattern, k: nat)
    decreases HolePositions - k
  {
    k >= HolePositions || (a[k] && !b[k]) || (a[k] == b[k] && HolesFirstFrom(a, b, k + 1))
  }

  predicate HolesFirst(a: Pattern, b: Pattern)
  {
    HolesFirstFrom(a, b, 0)
  }

  /** Of all eight orientations, p is the one that puts its holes at the
      lowest positions. */
  predicate Lowest(p: Pattern)
  {
    forall q :: q in Orientations(p) ==> HolesFirst(p, q)
  }

  /** Lowest(p) checked against the seven other orientations written
      out. */
  lemma LowestBySpelling(p: Pattern)
    requires HolesFirst(p, [p[9], p[10], p[11], p[0], p[1], p[2], p[3], p[4], p[5], p[6], p[7], p[8]])
    requires HolesFirst(p, [p[6], p[7], p[8], p[9], p[10], p[11], p[0], p[1], p[2], p[3], p[4], p[5]])
    requires HolesFirst(p, [p[3], p[4], p[5], p[6], p[7], p[8], p[9], p[10], p[11], p[0], p[1], p[2]])
    requires HolesFirst(p, [p[2], p[1], p[0], p[11], p[10], p[9], p[8], p[7], p[6], p[5], p[4], p[3]])
    requires HolesFirst(p, [p[5], p[4], p[3], p[2], p[1], p[0], p[11], p[10], p[9], p[8], p[7], p[6]])
    requires HolesFirst(p, [p[8], p[7], p[6], p[5], p[4], p[3], p[2], p[1], p[0], p[11], p[10], p[9]])
    requires HolesFirst(p, [p[11], p[10], p[9], p[8], p[7], p[6], p[5], p[4], p[3], p[2], p[1], p[0]])
    ensures Lowest(p)
  {
    SelfFirst(p, 0);
    TurnsSpelled(p, 1);
    TurnsSpelled(p, 2);
    TurnsSpelled(p, 3);
    MirrorTurnsSpelled(p, 0);
    MirrorTurnsSpelled(p, 1);
    MirrorTurnsSpelled(p, 2);
    MirrorTurnsSpelled(p, 3);
  }

  /** Every pattern compares as lowest against itself. */
  lemma {:induction false} SelfFirst(p: Pattern, k: nat)
    ensures HolesFirstFrom(p, p, k)
    decreases HolePositions - k
  {
    if k < HolePositions {
      SelfFirst(p, k + 1);
    }
  }

  /** Each brown tile is given in its lowest orientation. */
  lemma BrownsLowest()
    ensures forall t :: 0 <= t < |Browns| ==> Lowest(Browns[t])
  {
    LowestBySpelling(Browns[0]);
    LowestBySpelling(Browns[1]);
    LowestBySpelling(Browns[2]);
    LowestBySpelling(Browns[3]);
    LowestBySpelling(Browns[4]);
  }

  /** Each green tile is given in its lowest orientation. */
  lemma GreensLowest()
    ensures forall t :: 0 <= t < |Greens| ==> Lowest(Greens[t])
  {
    LowestBySpelling(Greens[0]);
    LowestBySpelling(Greens[1]);
    LowestBySpelling(Greens[2]);
    LowestBySpelling(Greens[3]);
  }

  /** Every catalog tile is given in the orientation that puts its holes at
      the lowest positions. */
  lemma CatalogLowest()
    ensures forall t :: 0 <= t < |Browns| ==> Lowest(Browns[t])
    ensures forall t :: 0 <= t < |Greens| ==> Lowest(Greens[t])
  {
    BrownsLowest();
    GreensLowest();
  }
}

=== FILE: counting.dfy ===
/** Counting facts about finite sets of naturals. */
module Counting {
  /** The values of a sequence. */
  function Values(xs: seq<nat>): set<nat>
  {
    set x | x in xs
  }

  /** The naturals below n. */
  function Below(n: nat): (b: set<nat>)
    ensures forall t: nat :: t in b <==> t < n
  {
    if n == 0 then {} else Below(n - 1) + {n - 1}
  }

  /** No value occurs twice. */
  predicate Distinct(xs: seq<nat>)
  {
    forall i, j :: 0 <= i < j < |xs| ==> xs[i] != xs[j]
  }

  /** A sequence without repeats has as many values as entries. */
  lemma {:induction false} DistinctValues(xs: seq<nat>)
    requires Distinct(xs)
    ensures |Values(xs)| == |xs|
  {
    if |xs| > 0 {
      var init := xs[..|xs| - 1];
      var last := xs[|xs| - 1];
      assert Distinct(init);
      DistinctValues(init);
      assert Values(xs) == Values(init) + {last};
      assert last !in Values(init);
    }
  }

  /** There are n naturals below n. */
  lemma {:induction false} BelowSize(n: nat)
    ensures |Below(n)| == n
  {
    if n > 0 {
      BelowSize(n - 1);
    }
  }

  /** n distinct values below n are all the values below n. */
  lemma Pigeonhole(xs: seq<nat>, n: nat)
    requires |xs| == n && Distinct(xs)
    requires forall i :: 0 <= i < |xs| ==> xs[i] < n
    ensures forall t :: 0 <= t < n ==> t in xs
  {
    var s := Values(xs);
    var b := Below(n);
    DistinctValues(xs);
    BelowSize(n);
    assert s <= b;
    assert s * b == s;
    assert s + b == b;
    assert |b - s| == 0;
    forall t | 0 <= t < n
      ensures t in xs
    {
      assert t in b;
      assert t !in b - s;
    }
  }
}

=== FILE: coverage.dfy ===
/** The peg coverage grid: one row per layer of the obelisk, one cell per
    hole position; a cell holds 0 when no peg passes through it, otherwise
    the length of the peg that does. */
module Coverage {
  import opened Sizes

  type Matrix = seq<seq<nat>>

  /** TotalTiles rows of HolePositions cells. */
  predicate Shaped(m: Matrix)
  {
    |m| == TotalTiles && forall k :: 0 <= k < TotalTiles ==> |m[k]| == HolePositions
  }

  /** The grid before any peg is placed. */
  function Empty(): (m: Matrix)
    ensures Shaped(m)
    ensures forall k, j :: 0 <= k < TotalTiles && 0 <= j < HolePositions ==> m[k][j] == 0
  {
    seq(TotalTiles, k => seq(HolePositions, j => 0))
  }

  /** The cells of hole position j, bottom layer first. */
  function Column(m: Matrix, j: nat): (c: seq<nat>)
    requires Shaped(m) && j < HolePositions
    ensures |c| == TotalTiles
    ensures forall k :: 0 <= k < TotalTiles ==> c[k] == m[k][j]
  {
    seq(TotalTiles, k requires 0 <= k < TotalTiles => m[k][j])
  }

  /** A column read bottom-up splits into empty cells and whole pegs: a peg
      of length L is a run of exactly L cells each holding L, and it ends
      inside the column. */
  predicate Contiguous(c: seq<nat>)
    decreases |c|
  {
    if |c| == 0 then true
    else if c[0] == 0 then Contiguous(c[1..])
    else
      && 1 <= c[0] <= PegTypes
      && c[0] <= |c|
      && (forall k :: 0 <= k < c[0] ==> c[k] == c[0])
      && Contiguous(c[c[0]..])
  }

  /** Number of pegs of length len in a contiguous column. */
  function PegsIn(c: seq<nat>, len: nat): nat
    requires Contiguous(c)
    decreases |c|
  {
    if |c| == 0 then 0
    else if c[0] == 0 then PegsIn(c[1..], len)
    else (if c[0] == len then 1 else 0) + PegsIn(c[c[0]..], len)
  }

  /** Every column of the grid is made of whole pegs. */
  predicate WellPegged(m: Matrix)
  {
    Shaped(m) && forall j :: 0 <= j < HolePositions ==> Contiguous(Column(m, j))
  }

  /** Number of pegs of length len in the columns below n. */
  function PegsBelow(m: Matrix, len: nat, n: nat): nat
    requires WellPegged(m) && n <= HolePositions
  {
    if n == 0 then 0 else PegsBelow(m, len, n - 1) + PegsIn(Column(m, n - 1), len)
  }

  /** Number of pegs of length len in the grid. */
  function PegsOfLength(m: Matrix, len: nat): nat
    requires WellPegged(m)
  {
    PegsBelow(m, len, HolePositions)
  }

  /** Writes v into the len cells of column col from layer from upward. */
  function Paint(m: Matrix, col: nat, from: nat, len: nat, v: nat): (r: Matrix)
    requires Shaped(m) && col < HolePositions && from + len <= TotalTiles
    ensures Shaped(r)
    ensures forall k, j :: 0 <= k < TotalTiles && 0 <= j < HolePositions ==>
              r[k][j] == if j == col && from <= k < from + len then v else m[k][j]
  {
    seq(TotalTiles, k requires 0 <= k < TotalTiles =>
      if from <= k < from + len then m[k][col := v] else m[k])
  }

  /** Cell (k, j) is empty or continues the peg of the cell below it. */
  predicate FromBelow(m: Matrix, k: nat, j: nat)
    requires Shaped(m) && k < TotalTiles && j < HolePositions
  {
    m[k][j] != 0 ==> 1 <= k && m[k - 1][j] == m[k][j]
  }

  /** Every covered cell at layer d or above continues the same peg from
      the layer below. */
  predicate Supported(m: Matrix, d: nat)
    requires Shaped(m)
  {
    forall k, j :: d <= k < TotalTiles && 0 <= j < HolePositions ==> FromBelow(m, k, j)
  }

  /** An empty cell at layer d - 1 has only empty cells above it. */
  lemma {:induction false} ClearAbove(m: Matrix, d: nat, j: nat)
    requires Shaped(m) && 1 <= d <= TotalTiles && j < HolePositions
    requires Supported(m, d) && m[d - 1][j] == 0
    ensures forall k :: d - 1 <= k < TotalTiles ==> m[k][j] == 0
  {
    var k := d - 1;
    while k < TotalTiles - 1
      invariant d - 1 <= k < TotalTiles
      invariant forall k' :: d - 1 <= k' <= k ==> m[k'][j] == 0
    {
      assert FromBelow(m, k + 1, j);
      k := k + 1;
    }
  }

  /** An empty column is made of whole pegs, none of them. */
  lemma {:induction false} EmptyColumn(c: seq<nat>, len: nat)
    requires forall k :: 0 <= k < |c| ==> c[k] == 0
    ensures Contiguous(c) && PegsIn(c, len) == 0
    decreases |c|
  {
    if |c| > 0 {
      EmptyColumn(c[1..], len);
    }
  }

  /** The empty grid holds no pegs. */
  lemma EmptyHasNoPegs(len: nat)
    ensures WellPegged(Empty()) && PegsOfLength(Empty(), len) == 0
  {
    var m := Empty();
    forall j | 0 <= j < HolePositions
      ensures Contiguous(Column(m, j)) && PegsIn(Column(m, j), len) == 0
    {
      EmptyColumn(Column(m, j), len);
    }
    NoPegsBelow(m, len, HolePositions);
  }

  lemma {:induction false} NoPegsBelow(m: Matrix, len: nat, n: nat)
    requires WellPegged(m) && n <= HolePositions
    requires forall j :: 0 <= j < HolePositions ==> PegsIn(Column(m, j), len) == 0
    ensures PegsBelow(m, len, n) == 0
  {
    if n > 0 {
      NoPegsBelow(m, len, n - 1);
    }
  }

  /** Column c with the cells from a to a + len - 1 set to v. */
  function Run(c: seq<nat>, a: nat, len: nat, v: nat): (r: seq<nat>)
    ensures |r| == |c|
    ensures forall k :: 0 <= k < |c| ==> r[k] == if a <= k < a + len then v else c[k]
  {
    seq(|c|, k requires 0 <= k < |c| => if a <= k < a + len then v else c[k])
  }

  /** A peg of length len at the bottom of an otherwise empty column. */
  lemma RunAtBottom(c: seq<nat>, len: nat)
    requires Contiguous(c) && 1 <= len <= PegTypes && len <= |c|
    requires forall k :: 0 <= k < |c| ==> c[k] == 0
    ensures Contiguous(Run(c, 0, len, len))
    ensures forall v :: PegsIn(Run(c, 0, len, len), v) == PegsIn(c, v) + (if v == len then 1 else 0)
  {
    var r := Run(c, 0, len, len);
    assert r[len..] == c[len..];
    EmptyColumn(c[len..], 0);
    forall v
      ensures PegsIn(r, v) == PegsIn(c, v) + (if v == len then 1 else 0)
    {
      EmptyColumn(c, v);
      EmptyColumn(c[len..], v);
    }
  }

  /** Placing a peg of length len at layer a of a column that is empty from
      a upward keeps the column made of whole pegs and adds exactly one peg
      of that length. */
  lemma {:induction false} RunAddsPeg(c: seq<nat>, a: nat, len: nat)
    requires Contiguous(c) && 1 <= len <= PegTypes && a + len <= |c|
    requires forall k :: a <= k < |c| ==> c[k] == 0
    ensures Contiguous(Run(c, a, len, len))
    ensures forall v :: PegsIn(Run(c, a, len, len), v) == PegsIn(c, v) + (if v == len then 1 else 0)
    decreases |c|
  {
    if a == 0 {
      RunAtBottom(c, len);
    } else if c[0] == 0 {
      RunAddsPeg(c[1..], a - 1, len);
      RunAfterCell(c, a, len, 1);
    } else {
      var n := c[0];
      assert a < |c| && c[a] == 0;
      assert n <= a;
      RunAddsPeg(c[n..], a - n, len);
      RunAfterCell(c, a, len, n);
    }
  }

  /** The step of RunAddsPeg: the column starts with n cells (one empty
      cell, or a whole peg of length n) that the new peg leaves alone, and
      the claim holds for the rest. */
  lemma RunAfterCell(c: seq<nat>, a: nat, len: nat, n: nat)
    requires Contiguous(c) && 1 <= n <= a && a + len <= |c|
    requires n == if c[0] == 0 then 1 else c[0]
    requires Contiguous(c[n..]) && Contiguous(Run(c[n..], a - n, len, len))
    requires forall v :: PegsIn(Run(c[n..], a - n, len, len), v) == PegsIn(c[n..], v) + (if v == len then 1 else 0)
    ensures Contiguous(Run(c, a, len, len))
    ensures forall v :: PegsIn(Run(c, a, len, len), v) == PegsIn(c, v) + (if v == len then 1 else 0)
  {
    var r := Run(c, a, len, len);
    assert r[n..] == Run(c[n..], a - n, len, len);
    assert r[0] == c[0];
  }

  /** Painting one column changes the peg count by that column's change. */
  lemma {:induction false} PegsBelowOneColumn(m: Matrix, m': Matrix, i: nat, len: nat, n: nat)
    requires WellPegged(m) && WellPegged(m') && i < HolePositions && n <= HolePositions
    requires forall j :: 0 <= j < HolePositions && j != i ==> Column(m', j) == Column(m, j)
    ensures PegsBelow(m', len, n) as int ==
              PegsBelow(m, len, n) as int +
              (if i < n then PegsIn(Column(m', i), len) as int - PegsIn(Column(m, i), len) as int else 0)
  {
    if n > 0 {
      PegsBelowOneColumn(m, m', i, len, n - 1);
    }
  }

  /** A peg of length len placed at column col, layer from, on a grid whose
      column is empty from there upward: the grid stays made of whole pegs,
      gains one peg of length len and no peg of any other length. */
  lemma PaintAddsPeg(m: Matrix, col: nat, from: nat, len: nat)
    requires WellPegged(m) && col < HolePositions && 1 <= len <= PegTypes && from + len <= TotalTiles
    requires forall k :: from <= k < TotalTiles ==> m[k][col] == 0
    ensures WellPegged(Paint(m, col, from, len, len))
    ensures forall v :: PegsOfLength(Paint(m, col, from, len, len), v) == PegsOfLength(m, v) + (if v == len then 1 else 0)
  {
    var m' := Paint(m, col, from, len, len);
    var c := Column(m, col);
    assert Column(m', col) == Run(c, from, len, len);
    RunAddsPeg(c, from, len);
    forall j | 0 <= j < HolePositions && j != col
      ensures Column(m', j) == Column(m, j)
    {
    }
    assert WellPegged(m');
    forall v
      ensures PegsOfLength(m', v) == PegsOfLength(m, v) + (if v == len then 1 else 0)
    {
      PegsBelowOneColumn(m, m', col, v, HolePositions);
    }
  }

  /** A peg placed from layer d - 1 upward, in a column empty from there,
      starts below layer d, so afterwards every covered cell at layer d or
      above still continues the same peg from the layer below. */
  lemma PaintKeepsSupported(m: Matrix, col: nat, d: nat, len: nat)
    requires Shaped(m) && col < HolePositions && 1 <= d && d - 1 + len <= TotalTiles
    requires Supported(m, d) && forall k :: d - 1 <= k < TotalTiles ==> m[k][col] == 0
    ensures Supported(Paint(m, col, d - 1, len, len), d)
  {
    var m' := Paint(m, col, d - 1, len, len);
    forall k, j | d <= k < TotalTiles && 0 <= j < HolePositions
      ensures FromBelow(m', k, j)
    {
      assert FromBelow(m, k, j);
    }
  }
}

=== FILE: puzzle.dfy ===
/** The state the search mutates and restores: the two tile groups with
    their used flags, the obelisk (stack of placed tiles), the peg inventory
    and the coverage grid. */
module Puzzle {
  import opened Sizes
  import opened Tiles
  import opened Symmetries
  import opened Coverage
  import opened Validity
  import opened Counting

  /** A catalog tile: its canonical hole pattern and whether it is stacked. */
  datatype Tile = Tile(holes: Pattern, used: bool)

  /** A stacked tile: which tile of its group it is, and the orientation it
      is shown in. Layer k takes its tile from group k % 2. */
  datatype Layer = Layer(tile: nat, holes: Pattern)

  /** Inventory counter of one peg length: how many are placed, how many
      exist. */
  datatype PegCount = PegCount(used: nat, total: nat)

  datatype State = State(
    groups: seq<seq<Tile>>,
    obelisk: seq<Layer>,
    pegs: seq<PegCount>,
    matrix: Matrix)

  /** One counter per peg length, none exceeding its capacity. */
  predicate InventoryOk(pegs: seq<PegCount>)
  {
    |pegs| == PegTypes && forall t :: 0 <= t < PegTypes ==> pegs[t].used <= pegs[t].total
  }

  /** Pegs of length t + 1 still in the box. */
  function Free(pegs: seq<PegCount>, t: nat): nat
  {
    if t < |pegs| && pegs[t].used <= pegs[t].total then pegs[t].total - pegs[t].used else 0
  }

  /** Pegs of all lengths still in the box. */
  function Remaining(pegs: seq<PegCount>): nat
  {
    Free(pegs, 0) + Free(pegs, 1) + Free(pegs, 2)
  }

  /** Group of the tile at layer k: brown (0) on even layers, green (1) on
      odd ones. */
  function GroupOf(k: nat): nat
  {
    k % 2
  }

  /** Layer k shows an orientation of a stacked tile of its group. */
  predicate FromCatalog(s: State, k: nat)
    requires |s.groups| == 2 && k < |s.obelisk|
  {
    var g := GroupOf(k);
    var t := s.obelisk[k].tile;
    && t < |s.groups[g]|
    && s.groups[g][t].used
    && s.obelisk[k].holes in Orientations(s.groups[g][t].holes)
  }

  /** Every layer comes from the catalog, no catalog tile is stacked twice,
      and groups alternate from layer to layer. */
  predicate Catalogued(s: State)
  {
    && |s.groups| == 2
    && (forall k :: 0 <= k < |s.obelisk| ==> FromCatalog(s, k))
    && (forall k1, k2 :: 0 <= k1 < k2 < |s.obelisk| && GroupOf(k1) == GroupOf(k2) ==>
          s.obelisk[k1].tile != s.obelisk[k2].tile)
  }

  /** Catalogued depends only on the groups and the stack. */
  lemma SameStackCatalogued(s: State, r: State)
    requires Catalogued(s) && r.groups == s.groups && r.obelisk == s.obelisk
    ensures Catalogued(r)
  {
    forall k | 0 <= k < |r.obelisk|
      ensures FromCatalog(r, k)
    {
      assert FromCatalog(s, k);
    }
  }

  /** The invariants that hold in every state the search visits: shapes,
      whole pegs in every column, each inventory counter equal to the number
      of pegs of its length in the grid and within capacity, and a catalogued
      stack no higher than the grid. */
  predicate Consistent(s: State)
  {
    && WellPegged(s.matrix)
    && InventoryOk(s.pegs)
    && (forall t :: 0 <= t < PegTypes ==> s.pegs[t].used == PegsOfLength(s.matrix, t + 1))
    && Catalogued(s)
    && |s.obelisk| <= TotalTiles
  }

  /** The n lowest layers have pegs through exactly their holes. */
  predicate LowerComplete(s: State, n: nat)
    requires Shaped(s.matrix) && n <= |s.obelisk| <= TotalTiles
  {
    forall k :: 0 <= k < n ==> Complete(s.obelisk[k].holes, s.matrix[k])
  }

  /** Top of the obelisk. */
  function Top(s: State): Pattern
    requires |s.obelisk| > 0
  {
    s.obelisk[|s.obelisk| - 1].holes
  }

  /** Entry condition of the tile search: all layers complete, room for one
      more, and every covered cell above the stack continuing the same peg
      from the layer below. */
  predicate ReadyForTiles(s: State)
  {
    && Consistent(s)
    && |s.obelisk| < TotalTiles
    && LowerComplete(s, |s.obelisk|)
    && Supported(s.matrix, |s.obelisk|)
  }

  /** Entry condition of the peg search: the layers below the top are
      complete, and the top has no peg outside its holes. */
  predicate ReadyForPegs(s: State)
  {
    && Consistent(s)
    && 1 <= |s.obelisk|
    && LowerComplete(s, |s.obelisk| - 1)
    && Fits(Top(s), s.matrix[|s.obelisk| - 1])
    && Supported(s.matrix, |s.obelisk|)
  }

  /** A solved puzzle: a full-height stack of distinct catalog tiles in
      alternating groups, each shown in one of its orientations, with pegs
      through exactly the holes of every layer, every column made of whole
      pegs that fit in the stack, and no more pegs of any length than the
      inventory holds. */
  predicate IsSolution(s: State)
  {
    && Consistent(s)
    && |s.obelisk| == TotalTiles
    && LowerComplete(s, TotalTiles)
  }

  /** r is reached from s by search steps that were never undone: the
      catalog is the same, the stack of s is the bottom of the stack of r,
      layers below the top of s are pegged as in s, and no counter went
      down. */
  predicate Extends(s: State, r: State)
  {
    && |r.groups| == |s.groups|
    && (forall g :: 0 <= g < |s.groups| ==> |r.groups[g]| == |s.groups[g]|)
    && (forall g, t :: 0 <= g < |s.groups| && 0 <= t < |s.groups[g]| ==>
          r.groups[g][t].holes == s.groups[g][t].holes)
    && |s.obelisk| <= |r.obelisk|
    && r.obelisk[..|s.obelisk|] == s.obelisk
    && |s.matrix| == |r.matrix|
    && (forall k :: 0 <= k < |s.obelisk| - 1 && k < |s.matrix| ==> r.matrix[k] == s.matrix[k])
    && |r.pegs| == |s.pegs|
    && (forall t :: 0 <= t < |s.pegs| ==> s.pegs[t].used <= r.pegs[t].used && s.pegs[t].total == r.pegs[t].total)
  }

  lemma ExtendsTransitive(a: State, b: State, c: State)
    requires Extends(a, b) && Extends(b, c)
    ensures Extends(a, c)
  {
  }

  /** Places a peg of length len through hole i of the top tile: the len
      cells of column i from the top layer upward take the value len and the
      counter of that length goes up by one. */
  function Place(s: State, i: nat, len: nat): (r: State)
    requires Shaped(s.matrix) && InventoryOk(s.pegs)
    requires 1 <= len <= PegTypes && i < HolePositions
    requires 1 <= |s.obelisk| && |s.obelisk| - 1 + len <= TotalTiles
    requires s.pegs[len - 1].used < s.pegs[len - 1].total
    ensures Shaped(r.matrix)
    ensures forall k, j :: 0 <= k < TotalTiles && 0 <= j < HolePositions ==>
              r.matrix[k][j] == if j == i && |s.obelisk| - 1 <= k < |s.obelisk| - 1 + len then len else s.matrix[k][j]
    ensures InventoryOk(r.pegs)
    ensures Remaining(r.pegs) + 1 == Remaining(s.pegs)
    ensures |r.pegs| == PegTypes && r.pegs[len - 1].used == s.pegs[len - 1].used + 1
    ensures forall t :: 0 <= t < PegTypes && t != len - 1 ==> r.pegs[t] == s.pegs[t]
    ensures r.groups == s.groups && r.obelisk == s.obelisk
  {
    var d := |s.obelisk|;
    var r := s.(matrix := Paint(s.matrix, i, d - 1, len, len),
                pegs := s.pegs[len - 1 := s.pegs[len - 1].(used := s.pegs[len - 1].used + 1)]);
    r
  }

  /** Takes the peg of length len back out of hole i of the top tile. */
  function Lift(s: State, i: nat, len: nat): (r: State)
    requires Shaped(s.matrix) && |s.pegs| == PegTypes
    requires 1 <= len <= PegTypes && i < HolePositions
    requires 1 <= |s.obelisk| && |s.obelisk| - 1 + len <= TotalTiles
    requires s.pegs[len - 1].used >= 1
    ensures Shaped(r.matrix)
    ensures forall k, j :: 0 <= k < TotalTiles && 0 <= j < HolePositions ==>
              r.matrix[k][j] == if j == i && |s.obelisk| - 1 <= k < |s.obelisk| - 1 + len then 0 else s.matrix[k][j]
    ensures InventoryOk(s.pegs) ==> InventoryOk(r.pegs) && Remaining(r.pegs) == Remaining(s.pegs) + 1
    ensures |r.pegs| == PegTypes && r.pegs[len - 1].used + 1 == s.pegs[len - 1].used
    ensures forall t :: 0 <= t < PegTypes && t != len - 1 ==> r.pegs[t] == s.pegs[t]
    ensures r.groups == s.groups && r.obelisk == s.obelisk
  {
    var d := |s.obelisk|;
    s.(matrix := Paint(s.matrix, i, d - 1, len, 0),
       pegs := s.pegs[len - 1 := s.pegs[len - 1].(used := s.pegs[len - 1].used - 1)])
  }

  /** Lift undoes Place exactly, provided the cells the peg covers were
      empty: the hole is open and every covered cell above the stack continues
      the same peg from the layer below. */
  lemma LiftUndoesPlace(s: State, i: nat, len: nat)
    requires Shaped(s.matrix) && InventoryOk(s.pegs)
    requires 1 <= len <= PegTypes && i < HolePositions
    requires 1 <= |s.obelisk| && |s.obelisk| - 1 + len <= TotalTiles
    requires s.pegs[len - 1].used < s.pegs[len - 1].total
    requires Supported(s.matrix, |s.obelisk|) && s.matrix[|s.obelisk| - 1][i] == 0
    ensures Lift(Place(s, i, len), i, len) == s
  {
    var d := |s.obelisk|;
    ClearAbove(s.matrix, d, i);
    var r := Lift(Place(s, i, len), i, len);
    forall k | 0 <= k < TotalTiles
      ensures r.matrix[k] == s.matrix[k]
    {
      assert forall j :: 0 <= j < HolePositions ==> r.matrix[k][j] == s.matrix[k][j];
    }
    assert r.pegs == s.pegs;
  }

  /** Placing a peg through an open hole of the top tile keeps every
      invariant of Consistent: the column stays made of whole pegs and the
      counter of its length follows the new peg. */
  lemma PlaceKeepsConsistent(s: State, i: nat, len: nat)
    requires ReadyForPegs(s)
    requires 1 <= len <= PegTypes && i < HolePositions
    requires |s.obelisk| - 1 + len <= TotalTiles
    requires s.pegs[len - 1].used < s.pegs[len - 1].total
    requires s.matrix[|s.obelisk| - 1][i] == 0
    ensures Consistent(Place(s, i, len))
  {
    var d := |s.obelisk|;
    var r := Place(s, i, len);
    ClearAbove(s.matrix, d, i);
    PaintAddsPeg(s.matrix, i, d - 1, len);
    forall t | 0 <= t < PegTypes
      ensures r.pegs[t].used == PegsOfLength(r.matrix, t + 1)
    {
    }
    SameStackCatalogued(s, r);
  }

  /** A placement the peg search makes keeps the state consistent, keeps it
      ready for the peg search, and extends it. */
  lemma PlaceKeepsReady(s: State, i: nat, len: nat)
    requires ReadyForPegs(s)
    requires 1 <= len <= PegTypes && i < HolePositions
    requires |s.obelisk| - 1 + len <= TotalTiles
    requires s.pegs[len - 1].used < s.pegs[len - 1].total
    requires Top(s)[i] && s.matrix[|s.obelisk| - 1][i] == 0
    ensures ReadyForPegs(Place(s, i, len))
    ensures Extends(s, Place(s, i, len))
  {
    var d := |s.obelisk|;
    var r := Place(s, i, len);
    PlaceKeepsConsistent(s, i, len);
    ClearAbove(s.matrix, d, i);
    PaintKeepsSupported(s.matrix, i, d, len);
    assert Top(r) == Top(s);
    assert forall k :: 0 <= k < d - 1 ==> r.matrix[k] == s.matrix[k];
    assert LowerComplete(r, d - 1);
    assert Fits(Top(r), r.matrix[d - 1]);
  }

  /** The tiles on the layers of group g of a full stack, bottom first. */
  function TilesOnGroup(s: State, g: nat): (xs: seq<nat>)
    requires g < 2 && |s.obelisk| == TotalTiles
    ensures |xs| == if g == 0 then BrownTiles else GreenTiles
    ensures forall j :: 0 <= j < |xs| ==> 2 * j + g < TotalTiles && xs[j] == s.obelisk[2 * j + g].tile
  {
    var n := if g == 0 then BrownTiles else GreenTiles;
    seq(n, j requires 0 <= j < n => s.obelisk[2 * j + g].tile)
  }

  /** Layer 2j + g belongs to group g. */
  lemma LayerParity(j: nat, g: nat)
    requires g < 2
    ensures GroupOf(2 * j + g) == g
  {
  }

  /** A tile of group g in a solution with as many tiles in g as layers of
      g is stacked on some layer of g. */
  lemma TileStacked(r: State, g: nat, t: nat)
    requires IsSolution(r) && g < 2
    requires |r.groups[g]| == if g == 0 then BrownTiles else GreenTiles
    requires t < |r.groups[g]|
    ensures exists k :: 0 <= k < TotalTiles && GroupOf(k) == g && r.obelisk[k].tile == t
  {
    var xs := TilesOnGroup(r, g);
    forall i, j | 0 <= i < j < |xs|
      ensures xs[i] != xs[j]
    {
      LayerParity(i, g);
      LayerParity(j, g);
    }
    forall i | 0 <= i < |xs|
      ensures xs[i] < |r.groups[g]|
    {
      LayerParity(i, g);
      assert FromCatalog(r, 2 * i + g);
    }
    Pigeonhole(xs, |r.groups[g]|);
    assert t in xs;
    var j :| 0 <= j < |xs| && xs[j] == t;
    LayerParity(j, g);
  }

  /** With five brown and four green tiles, as in the puzzle, a solution
      stacks every tile of the catalog, each on a layer of its own group:
      nine distinct tiles on nine layers leave none out. */
  lemma SolutionStacksEveryTile(r: State)
    requires IsSolution(r)
    requires |r.groups[0]| == BrownTiles && |r.groups[1]| == GreenTiles
    ensures forall g, t :: 0 <= g < 2 && 0 <= t < |r.groups[g]| ==>
              r.groups[g][t].used &&
              exists k :: 0 <= k < TotalTiles && GroupOf(k) == g && r.obelisk[k].tile == t
  {
    forall g, t | 0 <= g < 2 && 0 <= t < |r.groups[g]|
      ensures r.groups[g][t].used
      ensures exists k :: 0 <= k < TotalTiles && GroupOf(k) == g && r.obelisk[k].tile == t
    {
      TileStacked(r, g, t);
      var k :| 0 <= k < TotalTiles && GroupOf(k) == g && r.obelisk[k].tile == t;
      assert FromCatalog(r, k);
    }
  }
}

=== FILE: render.dfy ===
/** The drawing of one layer: a 5 x 5 grid of cells whose twelve border
    cells, corners excluded, show the twelve hole positions clockwise from
    the top left. */
module Render {
  import opened Sizes

  /** A border cell of the 5 x 5 drawing that is not a corner. */
  predicate Edge(row: nat, col: nat)
  {
    && row < 5 && col < 5
    && (row == 0 || row == 4 || col == 0 || col == 4)
    && !((row == 0 || row == 4) && (col == 0 || col == 4))
  }

  /** The cell that shows hole position p: positions 0-2 along the top,
      3-5 down the right side, 6-8 back along the bottom, 9-11 up the left
      side. */
  function CellOf(p: nat): (c: (nat, nat))
    requires p < HolePositions
    ensures Edge(c.0, c.1)
  {
    if p <= 2 then (0, p + 1)
    else if p <= 5 then (p - 2, 4)
    else if p <= 8 then (4, 9 - p)
    else (12 - p, 0)
  }

  /** The hole position a border cell shows, as the drawing computes it. */
  function PositionAt(row: nat, col: nat): (p: nat)
    requires Edge(row, col)
    ensures p < HolePositions
  {
    if row == 0 then col - 1
    else if row == 4 then 9 - col
    else if col == 0 then 12 - row
    else row + 2
  }

  /** Every hole position is drawn in the cell the table gives it. */
  lemma PositionRoundTrip(p: nat)
    requires p < HolePositions
    ensures PositionAt(CellOf(p).0, CellOf(p).1) == p
  {
  }

  /** Every border cell shows exactly one hole position, so no position is
      drawn twice or left out. */
  lemma CellRoundTrip(row: nat, col: nat)
    requires Edge(row, col)
    ensures CellOf(PositionAt(row, col)) == (row, col)
  {
  }
}

=== FILE: search.dfy ===
/** The backtracking search: the tile search chooses the next tile and its
    orientation, the peg search covers the holes of the top layer, and each
    hands over to the other. A frame that fails leaves the state exactly as
    it found it; once a frame succeeds every frame above it returns the
    solved state untouched. */
module Search {
  import opened Sizes
  import opened Tiles
  import opened Symmetries
  import opened Coverage
  import opened Validity
  import opened Puzzle

  /** Marks tile i of the group the next layer needs as used and pushes a
      copy of it, in its catalog orientation, onto the obelisk. The catalog
      patterns are left as they are, and of the used flags only that of
      tile i changes. */
  function Push(s: State, i: nat): (r: State)
    requires |s.groups| == 2 && i < |s.groups[GroupOf(|s.obelisk|)]|
    ensures |r.obelisk| == |s.obelisk| + 1 && r.obelisk[..|s.obelisk|] == s.obelisk
    ensures r.obelisk[|s.obelisk|] == Layer(i, s.groups[GroupOf(|s.obelisk|)][i].holes)
    ensures |r.groups| == 2
    ensures forall g, j :: 0 <= g < 2 && 0 <= j < |s.groups[g]| ==>
              j < |r.groups[g]| && r.groups[g][j].holes == s.groups[g][j].holes &&
              r.groups[g][j].used == (s.groups[g][j].used || (g == GroupOf(|s.obelisk|) && j == i))
    ensures forall g :: 0 <= g < 2 ==> |r.groups[g]| == |s.groups[g]|
    ensures r.matrix == s.matrix && r.pegs == s.pegs
  {
    var g := GroupOf(|s.obelisk|);
    var t := s.groups[g][i];
    s.(groups := s.groups[g := s.groups[g][i := t.(used := true)]],
       obelisk := s.obelisk + [Layer(i, t.holes)])
  }

  /** Shows the top tile in orientation q instead: the same tile stays on
      top and nothing else changes. */
  function Reorient(s: State, q: Pattern): (r: State)
    requires |s.obelisk| > 0
    ensures |r.obelisk| == |s.obelisk| && Top(r) == q
    ensures r.obelisk[|s.obelisk| - 1].tile == s.obelisk[|s.obelisk| - 1].tile
    ensures r.obelisk[..|s.obelisk| - 1] == s.obelisk[..|s.obelisk| - 1]
    ensures r.groups == s.groups && r.matrix == s.matrix && r.pegs == s.pegs
  {
    s.(obelisk := s.obelisk[|s.obelisk| - 1 := s.obelisk[|s.obelisk| - 1].(holes := q)])
  }

  /** Reorienting shows the new orientation on top, and a second reorienting
      overrides the first. */
  lemma ReorientTwice(c: State, q1: Pattern, q2: Pattern)
    requires |c.obelisk| > 0
    ensures Top(Reorient(c, q1)) == q1
    ensures Reorient(Reorient(c, q1), q2) == Reorient(c, q2)
  {
  }

  /** Pops the top tile and marks tile i of its group unused. The catalog
      patterns are left as they are, and of the used flags only that of
      tile i changes. */
  function Pop(s: State, i: nat): (r: State)
    requires |s.obelisk| > 0 && |s.groups| == 2 && i < |s.groups[GroupOf(|s.obelisk| - 1)]|
    ensures r.obelisk + [s.obelisk[|s.obelisk| - 1]] == s.obelisk
    ensures |r.groups| == 2
    ensures forall g, j :: 0 <= g < 2 && 0 <= j < |s.groups[g]| ==>
              j < |r.groups[g]| && r.groups[g][j].holes == s.groups[g][j].holes &&
              r.groups[g][j].used == (s.groups[g][j].used && !(g == GroupOf(|s.obelisk| - 1) && j == i))
    ensures forall g :: 0 <= g < 2 ==> |r.groups[g]| == |s.groups[g]|
    ensures r.matrix == s.matrix && r.pegs == s.pegs
  {
    var g := GroupOf(|s.obelisk| - 1);
    s.(groups := s.groups[g := s.groups[g][i := s.groups[g][i].(used := false)]],
       obelisk := s.obelisk[..|s.obelisk| - 1])
  }

  /** The catalog pattern of tile i of the group the next layer needs. */
  function Candidate(s: State, i: nat): Pattern
    requires |s.groups| == 2 && i < |s.groups[GroupOf(|s.obelisk|)]|
  {
    s.groups[GroupOf(|s.obelisk|)][i].holes
  }

  /** Pushing an unused tile of the right group in any of its orientations
      keeps the state consistent, leaves the grid and the inventory alone,
      and extends the state. */
  lemma PushKeepsConsistent(s: State, i: nat, q: Pattern)
    requires ReadyForTiles(s)
    requires i < |s.groups[GroupOf(|s.obelisk|)]| && !s.groups[GroupOf(|s.obelisk|)][i].used
    requires q in Orientations(Candidate(s, i))
    ensures var c := Reorient(Push(s, i), q);
      && Consistent(c)
      && |c.obelisk| == |s.obelisk| + 1
      && Top(c) == q
      && c.matrix == s.matrix && c.pegs == s.pegs
      && LowerComplete(c, |s.obelisk|)
      && Supported(c.matrix, |c.obelisk|)
      && Extends(s, c)
  {
    var d := |s.obelisk|;
    var g := GroupOf(d);
    var c := Reorient(Push(s, i), q);
    assert c.obelisk[..d] == s.obelisk;
    forall k | 0 <= k < |c.obelisk|
      ensures FromCatalog(c, k)
    {
      if k < d {
        assert FromCatalog(s, k);
        assert c.obelisk[k] == s.obelisk[k];
        if GroupOf(k) == g {
          assert s.obelisk[k].tile != i;
        }
      }
    }
    forall k1, k2 | 0 <= k1 < k2 < |c.obelisk| && GroupOf(k1) == GroupOf(k2)
      ensures c.obelisk[k1].tile != c.obelisk[k2].tile
    {
      if k2 == d {
        assert FromCatalog(s, k1);
      }
    }
    assert Catalogued(c);
    forall k, j | d + 1 <= k < TotalTiles && 0 <= j < HolePositions
      ensures FromBelow(c.matrix, k, j)
    {
      assert FromBelow(s.matrix, k, j);
    }
  }

  /** Popping the pushed tile, whatever orientation it ended in, restores the
      state the push started from. */
  lemma PopUndoesPush(s: State, i: nat, q: Pattern)
    requires |s.groups| == 2 && i < |s.groups[GroupOf(|s.obelisk|)]|
    requires !s.groups[GroupOf(|s.obelisk|)][i].used
    ensures Pop(Reorient(Push(s, i), q), i) == s
  {
    var d := |s.obelisk|;
    var g := GroupOf(d);
    var t := s.groups[g][i];
    var c := Reorient(Push(s, i), q);
    assert GroupOf(|c.obelisk| - 1) == g;
    assert c.obelisk[..d] == s.obelisk;
    assert c.groups[g][i].(used := false) == t;
    assert c.groups[g][i := t] == s.groups[g];
    assert c.groups[g := s.groups[g]] == s.groups;
  }

  /** A top layer the classifier passes and finds fully covered completes
      the stack of complete layers below it. */
  lemma TopCompletes(s: State)
    requires Consistent(s) && 1 <= |s.obelisk|
    requires LowerComplete(s, |s.obelisk| - 1)
    requires Fits(Top(s), s.matrix[|s.obelisk| - 1]) && AllFilled(Top(s), s.matrix[|s.obelisk| - 1])
    ensures LowerComplete(s, |s.obelisk|)
  {
  }

  lemma ExtendsReflexive(s: State)
    ensures Extends(s, s)
  {
    assert s.obelisk[..|s.obelisk|] == s.obelisk;
  }

  /** The peg search on the top layer (try_pegs): every open hole, in
      position order, gets its choice of pegs. Once every choice is
      exhausted the classifier decides: SOLVED ends the search, INVALID
      restores the snapshot taken on entry, and VALID (top layer complete,
      pegs reaching up) hands over to the tile search for the next layer. */
  method TryPegs(s: State) returns (solved: bool, r: State)
    requires ReadyForPegs(s)
    ensures solved ==> IsSolution(r) && Extends(s, r)
    ensures !solved ==> r == s
    decreases TotalTiles - |s.obelisk|, Remaining(s.pegs), 5
  {
    var snapshot := s;
    var cur := s;
    var i := 0;
    while i < HolePositions
      invariant 0 <= i <= HolePositions
      invariant cur == s
    {
      solved, r := TryHole(cur, i);
      if solved {
        return;
      }
      cur := r;
      i := i + 1;
    }

    var d := |cur.obelisk|;
    var st := CheckValid(Top(cur), cur.matrix, d, true);
    if st == Solved {
      TopCompletes(cur);
      ExtendsReflexive(s);
      solved, r := true, cur;
    } else if st == Invalid {
      solved, r := false, snapshot;
    } else {
      TopCompletes(cur);
      solved, r := TryTiles(cur);
    }
  }

  /** The choices of the peg search at hole i: nothing unless the top tile
      has a hole there that no peg fills yet; then a peg of length 3, 2 and
      1 in turn, each only if one is left and it fits under the top of the
      finished obelisk. */
  method TryHole(s: State, i: nat) returns (solved: bool, r: State)
    requires ReadyForPegs(s) && i < HolePositions
    ensures solved ==> IsSolution(r) && Extends(s, r)
    ensures !solved ==> r == s
    decreases TotalTiles - |s.obelisk|, Remaining(s.pegs), 4
  {
    var d := |s.obelisk|;
    solved, r := false, s;
    if Top(s)[i] && s.matrix[d - 1][i] == 0 {
      if d + 2 <= TotalTiles && s.pegs[2].used < s.pegs[2].total {
        solved, r := TryPeg(s, i, 3);
        if solved {
          return;
        }
      }
      if d + 1 <= TotalTiles && s.pegs[1].used < s.pegs[1].total {
        solved, r := TryPeg(s, i, 2);
        if solved {
          return;
        }
      }
      if s.pegs[0].used < s.pegs[0].total {
        solved, r := TryPeg(s, i, 1);
      }
    }
  }

  /** One choice of the peg search: a peg of length len through open hole i
      of the top tile, the search continued on top of it, and the peg lifted
      back out when that fails. */
  method TryPeg(s: State, i: nat, len: nat) returns (solved: bool, r: State)
    requires ReadyForPegs(s)
    requires 1 <= len <= PegTypes && i < HolePositions
    requires |s.obelisk| - 1 + len <= TotalTiles
    requires s.pegs[len - 1].used < s.pegs[len - 1].total
    requires Top(s)[i] && s.matrix[|s.obelisk| - 1][i] == 0
    ensures solved ==> IsSolution(r) && Extends(s, r)
    ensures !solved ==> r == s
    decreases TotalTiles - |s.obelisk|, Remaining(s.pegs), 3
  {
    PlaceKeepsReady(s, i, len);
    var placed := Place(s, i, len);
    solved, r := TryPegs(placed);
    if solved {
      ExtendsTransitive(s, placed, r);
    } else {
      LiftUndoesPlace(s, i, len);
      r := Lift(r, i, len);
    }
  }

  /** The tile search for the next layer (try_tiles): tries every unused
      tile of the group the layer needs, in catalog order. */
  method TryTiles(s: State) returns (solved: bool, r: State)
    requires ReadyForTiles(s)
    ensures solved ==> IsSolution(r) && Extends(s, r)
    ensures !solved ==> r == s
    decreases TotalTiles - |s.obelisk|, Remaining(s.pegs), 3
  {
    var g := GroupOf(|s.obelisk|);
    var i := 0;
    while i < |s.groups[g]|
      invariant 0 <= i <= |s.groups[g]|
    {
      if !s.groups[g][i].used {
        solved, r := TryTile(s, i);
        if solved {
          return;
        }
      }
      i := i + 1;
    }
    solved, r := false, s;
  }

  /** One candidate of the tile search: tile i is pushed, four iterations
      each try two orientations and turn the tile a quarter, and finally the
      tile is popped and marked unused. */
  method TryTile(s: State, i: nat) returns (solved: bool, r: State)
    requires ReadyForTiles(s)
    requires i < |s.groups[GroupOf(|s.obelisk|)]| && !s.groups[GroupOf(|s.obelisk|)][i].used
    ensures solved ==> IsSolution(r) && Extends(s, r)
    ensures !solved ==> r == s
    decreases TotalTiles - |s.obelisk|, Remaining(s.pegs), 2
  {
    var p := Candidate(s, i);
    var cur := Push(s, i);
    assert cur == Reorient(Push(s, i), AfterSteps(p, 0));
    var rotation := 0;
    while rotation < 4
      invariant 0 <= rotation <= 4
      invariant cur == Reorient(Push(s, i), AfterSteps(p, rotation))
    {
      solved, r := TryTurn(s, i, rotation);
      if solved {
        return;
      }
      var reflected := Flip(AfterSteps(p, rotation), rotation % 2 == 0);
      ReorientTwice(Push(s, i), reflected, Rotate(reflected));
      cur := r;
      cur := Reorient(cur, Rotate(Top(cur)));
      NextStart(p, rotation);
      rotation := rotation + 1;
    }
    PopUndoesPush(s, i, AfterSteps(p, 4));
    solved, r := false, Pop(cur, i);
  }

  /** One iteration of the rotation loop: the orientation the iteration
      starts from is tried, the tile is reflected (vertically on even
      iterations, horizontally on odd ones) and tried again. When both fail
      the pushed tile is left in its reflected orientation. */
  method TryTurn(s: State, i: nat, rotation: nat) returns (solved: bool, r: State)
    requires ReadyForTiles(s)
    requires i < |s.groups[GroupOf(|s.obelisk|)]| && !s.groups[GroupOf(|s.obelisk|)][i].used
    requires rotation < 4
    ensures solved ==> IsSolution(r) && Extends(s, r)
    ensures !solved ==> r == Reorient(Push(s, i), Flip(AfterSteps(Candidate(s, i), rotation), rotation % 2 == 0))
    decreases TotalTiles - |s.obelisk|, Remaining(s.pegs), 1
  {
    var p := Candidate(s, i);
    var top := AfterSteps(p, rotation);
    StartIsOrientation(p, rotation);
    solved, r := Attempt(s, i, top);
    if solved {
      return;
    }
    top := Flip(Top(r), rotation % 2 == 0);
    ReflectionIsOrientation(p, rotation);
    solved, r := Attempt(s, i, top);
  }

  /** Tile i pushed in orientation q is classified: SOLVED ends the search,
      VALID hands over to the peg search on the new top, and INVALID, or a
      peg search that fails, leaves the pushed state as it was. */
  method Attempt(s: State, i: nat, q: Pattern) returns (solved: bool, r: State)
    requires ReadyForTiles(s)
    requires i < |s.groups[GroupOf(|s.obelisk|)]| && !s.groups[GroupOf(|s.obelisk|)][i].used
    requires q in Orientations(Candidate(s, i))
    ensures solved ==> IsSolution(r) && Extends(s, r)
    ensures !solved ==> r == Reorient(Push(s, i), q)
    decreases TotalTiles - |s.obelisk|, Remaining(s.pegs), 0
  {
    var cur := Reorient(Push(s, i), q);
    PushKeepsConsistent(s, i, q);
    var st := CheckValid(Top(cur), cur.matrix, |cur.obelisk|, false);
    if st == Solved {
      TopCompletes(cur);
      solved, r := true, cur;
    } else if st == Valid {
      solved, r := TryPegs(cur);
      if solved {
        ExtendsTransitive(s, cur, r);
      }
    } else {
      solved, r := false, cur;
    }
  }

  /** The catalog entries of one group, none of them stacked yet. */
  function Unused(patterns: seq<Pattern>): (g: seq<Tile>)
    ensures |g| == |patterns|
    ensures forall t :: 0 <= t < |g| ==> g[t].holes == patterns[t] && !g[t].used
  {
    seq(|patterns|, t requires 0 <= t < |patterns| => Tile(patterns[t], false))
  }

  /** The peg box before the search starts: nothing placed, and the
      capacities of the puzzle for lengths 1, 2 and 3. */
  function FullBox(): (pegs: seq<PegCount>)
    ensures InventoryOk(pegs)
    ensures forall t :: 0 <= t < PegTypes ==> pegs[t].used == 0
    ensures pegs[0].total == OnePegs && pegs[1].total == TwoPegs && pegs[2].total == ThreePegs
    ensures Remaining(pegs) == OnePegs + TwoPegs + ThreePegs
  {
    [PegCount(0, OnePegs), PegCount(0, TwoPegs), PegCount(0, ThreePegs)]
  }

  /** The state before the search starts: the brown and the green catalog
      with no tile stacked, an empty obelisk, a full peg box and an empty
      grid. */
  function Initial(browns: seq<Pattern>, greens: seq<Pattern>): (s: State)
    ensures |s.groups| == 2 && |s.groups[0]| == |browns| && |s.groups[1]| == |greens|
    ensures forall t :: 0 <= t < |browns| ==> s.groups[0][t] == Tile(browns[t], false)
    ensures forall t :: 0 <= t < |greens| ==> s.groups[1][t] == Tile(greens[t], false)
    ensures s.obelisk == [] && s.pegs == FullBox()
    ensures Shaped(s.matrix)
    ensures forall k, j :: 0 <= k < TotalTiles && 0 <= j < HolePositions ==> s.matrix[k][j] == 0
  {
    State([Unused(browns), Unused(greens)], [], FullBox(), Empty())
  }

  /** The tile search may start from the initial state. */
  lemma InitialReady(browns: seq<Pattern>, greens: seq<Pattern>)
    ensures ReadyForTiles(Initial(browns, greens))
  {
    var s := Initial(browns, greens);
    var m := s.matrix;
    EmptyHasNoPegs(1);
    forall t | 0 <= t < PegTypes
      ensures s.pegs[t].used == PegsOfLength(m, t + 1)
    {
      EmptyHasNoPegs(t + 1);
    }
    assert WellPegged(m);
    assert InventoryOk(s.pegs);
    assert Catalogued(s);
    assert Consistent(s);
    assert LowerComplete(s, 0);
    forall k, j | 0 <= k < TotalTiles && 0 <= j < HolePositions
      ensures FromBelow(m, k, j)
    {
      assert m[k][j] == 0;
    }
    assert Supported(m, 0);
  }

  /** The whole search (solve_obelisk): the tile search from the initial
      state. A solution keeps the catalog as given; without one the state
      is back where it started. */
  method Solve(browns: seq<Pattern>, greens: seq<Pattern>) returns (solved: bool, r: State)
    ensures solved ==> IsSolution(r)
    ensures solved ==> Extends(Initial(browns, greens), r)
    ensures solved ==> |r.pegs| == PegTypes && forall t :: 0 <= t < PegTypes ==> r.pegs[t].total == FullBox()[t].total
    ensures solved ==> |r.groups[0]| == |browns| && |r.groups[1]| == |greens|
    ensures solved ==> forall t :: 0 <= t < |browns| ==> r.groups[0][t].holes == browns[t]
    ensures solved ==> forall t :: 0 <= t < |greens| ==> r.groups[1][t].holes == greens[t]
    ensures !solved ==> r == Initial(browns, greens)
  {
    var s := Initial(browns, greens);
    InitialReady(browns, greens);
    solved, r := TryTiles(s);
    if solved {
      assert Extends(s, r);
      assert forall t :: 0 <= t < |browns| ==> r.groups[0][t].holes == s.groups[0][t].holes;
      assert forall t :: 0 <= t < |greens| ==> r.groups[1][t].holes == s.groups[1][t].holes;
    }
  }
}

=== FILE: sizes.dfy ===
/** The fixed dimensions of the puzzle instance: hole positions per tile,
    tiles per category, stack height and the peg inventory. */
module Sizes {
  /** Hole positions around the perimeter of every tile. */
  const HolePositions: nat := 12

  /** Tiles in the brown category (group 0) and in the green category (group 1). */
  const BrownTiles: nat := 5
  const GreenTiles: nat := 4

  /** Height of a finished obelisk: every tile of both categories is stacked. */
  const TotalTiles: nat := BrownTiles + GreenTiles

  /** Peg lengths 1, 2 and 3; counters are indexed by length - 1. */
  const PegTypes: nat := 3

  /** Capacities of the inventory, by peg length. */
  const OnePegs: nat := 1
  const TwoPegs: nat := 9
  const ThreePegs: nat := 4
}

=== FILE: symmetries.dfy ===
/** The orientations a tile takes while the tile search tries it: four
    rotation steps, each preceded by one reflection whose axis alternates
    with the parity of the step. */
module Symmetries {
  import opened Sizes
  import opened Tiles

  /** k clockwise quarter turns. */
  function Turn(p: Pattern, k: nat): Pattern
  {
    if k == 0 then p else Rotate(Turn(p, k - 1))
  }

  /** The eight images of a pattern under the symmetries of the square: its
      four rotations and the four rotations of its vertical mirror image. */
  function Orientations(p: Pattern): set<Pattern>
  {
    var m := Flip(p, true);
    {Turn(p, 0), Turn(p, 1), Turn(p, 2), Turn(p, 3), Turn(m, 0), Turn(m, 1), Turn(m, 2), Turn(m, 3)}
  }

  /** One iteration of the rotation loop: reflect (vertically on even
      iterations, horizontally on odd ones), then turn a quarter. */
  function Step(p: Pattern, rotation: nat): Pattern
  {
    Rotate(Flip(p, rotation % 2 == 0))
  }

  /** Together the reflection and the quarter turn of one iteration are a
      single reflection across a diagonal of the square: on even iterations
      positions i and 5 - i trade places, on odd ones i and 11 - i (modulo
      12). */
  lemma StepIsDiagonalReflection(p: Pattern, rotation: nat)
    ensures forall i :: 0 <= i < HolePositions ==> Step(p, rotation)[i] == p[StepSource(rotation, i)]
  {
    forall i | 0 <= i < HolePositions
      ensures Step(p, rotation)[i] == p[StepSource(rotation, i)]
    {
      StepAt(p, rotation, i);
    }
  }

  /** StepIsDiagonalReflection at a single position. */
  lemma StepAt(p: Pattern, rotation: nat, i: nat)
    requires i < HolePositions
    ensures Step(p, rotation)[i] == p[StepSource(rotation, i)]
  {
    var f := Flip(p, rotation % 2 == 0);
    assert Step(p, rotation)[i] == f[TurnSource(i)];
    assert f[TurnSource(i)] == p[MirrorSource(TurnSource(i), rotation % 2 == 0)];
    DiagonalSource(rotation, i);
  }

  /** The index arithmetic behind StepIsDiagonalReflection. */
  lemma DiagonalSource(rotation: nat, i: nat)
    requires i < HolePositions
    ensures MirrorSource(TurnSource(i), rotation % 2 == 0) == StepSource(rotation, i)
  {
  }

  /** The position whose hole iteration number rotation brings to position
      i. */
  function StepSource(rotation: nat, i: nat): (j: nat)
    ensures j < HolePositions
  {
    ((if rotation % 2 == 0 then 5 else 11) - i) % HolePositions
  }

  /** The position whose hole n iterations of the loop bring to position
      i: after an even number of iterations the pattern is turned 3n
      positions, after an odd number it is reflected so that positions i
      and 3n + 2 - i trade places (all modulo 12). */
  function StepsSource(n: nat, i: nat): (j: nat)
    ensures j < HolePositions
  {
    (if n % 2 == 0 then i + 3 * n else 3 * n + 2 - i) % HolePositions
  }

  /** The orientation of a pushed tile after n iterations of the loop. */
  function AfterSteps(p: Pattern, n: nat): Pattern
  {
    if n == 0 then p else Step(AfterSteps(p, n - 1), n - 1)
  }

  /** The pushed pattern p read through StepsSource(n, .). */
  function StepsImage(p: Pattern, n: nat): (r: Pattern)
    ensures forall i :: 0 <= i < HolePositions ==> r[i] == p[StepsSource(n, i)]
  {
    seq(HolePositions, i requires 0 <= i < HolePositions => p[StepsSource(n, i)])
  }

  /** After n iterations of the loop, position i shows the hole that was at
      position StepsSource(n, i) of the pushed pattern: an even number of
      iterations amounts to a turn by 3n positions, an odd number to a
      reflection. */
  lemma StepsClosedForm(p: Pattern, n: nat)
    ensures AfterSteps(p, n) == StepsImage(p, n)
  {
    NoStepsImage(p);
    var k := 0;
    while k < n
      invariant k <= n
      invariant AfterSteps(p, k) == StepsImage(p, k)
    {
      ClosedFormStep(p, k + 1);
      k := k + 1;
    }
  }

  /** The inductive step of StepsClosedForm. */
  lemma ClosedFormStep(p: Pattern, n: nat)
    requires 1 <= n && AfterSteps(p, n - 1) == StepsImage(p, n - 1)
    ensures AfterSteps(p, n) == StepsImage(p, n)
  {
    StepAdvances(p, n);
  }

  /** Before the first iteration the pushed pattern is read as it is. */
  lemma NoStepsImage(p: Pattern)
    ensures StepsImage(p, 0) == p
  {
    forall i | 0 <= i < HolePositions
      ensures StepsImage(p, 0)[i] == p[i]
    {
      assert StepsSource(0, i) == i;
    }
  }

  /** One more iteration of the loop moves the closed form from n - 1 to
      n. */
  lemma StepAdvances(p: Pattern, n: nat)
    requires 1 <= n
    ensures Step(StepsImage(p, n - 1), n - 1) == StepsImage(p, n)
  {
    forall i | 0 <= i < HolePositions
      ensures StepsImage(p, n)[i] == StepsImage(p, n - 1)[StepSource(n - 1, i)]
    {
      ImageAdvances(p, n, i);
    }
    StepMatches(StepsImage(p, n - 1), n - 1, StepsImage(p, n));
  }

  /** A pattern that reads every position from where the diagonal
      reflection of iteration number rotation takes it is that iteration's
      image. */
  lemma StepMatches(q: Pattern, rotation: nat, r: Pattern)
    requires forall i :: 0 <= i < HolePositions ==> r[i] == q[StepSource(rotation, i)]
    ensures Step(q, rotation) == r
  {
    StepIsDiagonalReflection(q, rotation);
    assert forall i :: 0 <= i < HolePositions ==> Step(q, rotation)[i] == r[i];
  }

  /** The closed form at n - 1, read at the position one more iteration
      takes to position i, is the closed form at n. */
  lemma ImageAdvances(p: Pattern, n: nat, i: nat)
    requires 1 <= n && i < HolePositions
    ensures StepsImage(p, n - 1)[StepSource(n - 1, i)] == StepsImage(p, n)[i]
  {
    SourcesCompose(n, i);
  }

  /** The index arithmetic behind StepAdvances. */
  lemma SourcesCompose(n: nat, i: nat)
    requires 1 <= n && i < HolePositions
    ensures StepsSource(n - 1, StepSource(n - 1, i)) == StepsSource(n, i)
  {
    if (n - 1) % 2 == 0 {
      OddSourcesCompose(n, i);
    } else {
      EvenSourcesCompose(n, i);
    }
  }

  /** An odd iteration count: a turn by 3 * (n - 1) positions followed by a
      diagonal reflection is a reflection. */
  lemma OddSourcesCompose(n: nat, i: nat)
    requires 1 <= n && i < HolePositions && n % 2 == 1
    ensures StepsSource(n - 1, StepSource(n - 1, i)) == StepsSource(n, i)
  {
    var m := n - 1;
    var j := (5 - i) % HolePositions;
    assert StepSource(m, i) == j;
    assert StepsSource(m, j) == (j + 3 * m) % HolePositions;
    ShiftMod(5 - i, 3 * m);
    assert 5 - i + 3 * m == 3 * n + 2 - i;
  }

  /** An even iteration count: two reflections compose to a rotation. */
  lemma EvenSourcesCompose(n: nat, i: nat)
    requires 2 <= n && i < HolePositions && n % 2 == 0
    ensures StepsSource(n - 1, StepSource(n - 1, i)) == StepsSource(n, i)
  {
    var m := n - 1;
    var j := (11 - i) % HolePositions;
    assert StepSource(m, i) == j;
    assert StepsSource(m, j) == (3 * m + 2 - j) % HolePositions;
    ShiftMod(11 - i, 3 * m + 2);
    assert 3 * m + 2 - (11 - i) == i + 3 * n - 12;
    assert (i + 3 * n - 12) % HolePositions == (i + 3 * n) % HolePositions;
  }

  /** Reducing a summand modulo 12 first does not change the sum modulo
      12. */
  lemma ShiftMod(a: int, b: int)
    ensures (a % HolePositions + b) % HolePositions == (a + b) % HolePositions
    ensures (b - a % HolePositions) % HolePositions == (b - a) % HolePositions
  {
    var q, r := a / HolePositions, a % HolePositions;
    assert a == HolePositions * q + r;
    var s := a + b;
    ModUnique(r + b, s / HolePositions - q, s % HolePositions);
    var t := b - a;
    ModUnique(b - r, t / HolePositions + q, t % HolePositions);
  }

  /** The remainder modulo 12 is the only value in 0..11 that differs from
      the number by a multiple of 12. */
  lemma ModUnique(x: int, q: int, r: int)
    requires x == HolePositions * q + r && 0 <= r < HolePositions
    ensures x % HolePositions == r
  {
  }

  /** The n-th pattern handed to the classifier for a tile pushed as p:
      the unreflected and then the reflected orientation of each iteration. */
  function Tried(p: Pattern, n: nat): Pattern
    requires n < 8
  {
    var q := AfterSteps(p, n / 2);
    if n % 2 == 0 then q else Flip(q, (n / 2) % 2 == 0)
  }

  /** One iteration of the loop, written out. */
  lemma StepSpelled(q: Pattern, rotation: nat)
    ensures rotation % 2 == 0 ==>
      Step(q, rotation) == [q[5], q[4], q[3], q[2], q[1], q[0], q[11], q[10], q[9], q[8], q[7], q[6]]
    ensures rotation % 2 == 1 ==>
      Step(q, rotation) == [q[11], q[10], q[9], q[8], q[7], q[6], q[5], q[4], q[3], q[2], q[1], q[0]]
  {
  }

  /** The orientation after the first iteration, written out. */
  lemma AfterOneStep(p: Pattern)
    ensures AfterSteps(p, 1) == [p[5], p[4], p[3], p[2], p[1], p[0], p[11], p[10], p[9], p[8], p[7], p[6]]
  {
    assert AfterSteps(p, 0) == p;
    StepSpelled(p, 0);
  }

  /** The orientation after the second iteration, written out. */
  lemma AfterTwoSteps(p: Pattern)
    ensures AfterSteps(p, 2) == [p[6], p[7], p[8], p[9], p[10], p[11], p[0], p[1], p[2], p[3], p[4], p[5]]
  {
    AfterOneStep(p);
    StepSpelled(AfterSteps(p, 1), 1);
  }

  /** The orientation after the third iteration, written out. */
  lemma AfterThreeSteps(p: Pattern)
    ensures AfterSteps(p, 3) == [p[11], p[10], p[9], p[8], p[7], p[6], p[5], p[4], p[3], p[2], p[1], p[0]]
  {
    AfterTwoSteps(p);
    StepSpelled(AfterSteps(p, 2), 2);
  }

  /** The iterations of the rotation loop compose to the identity: after the
      fourth quarter turn the pushed tile is back in its pushed orientation. */
  lemma CycleIsIdentity(p: Pattern)
    ensures AfterSteps(p, 4) == p
  {
    AfterFourSteps(p);
    SpelledIdentity(p, AfterSteps(p, 4));
  }

  /** A pattern written out position by position is that pattern. */
  lemma SpelledIdentity(p: Pattern, q: Pattern)
    requires q == [p[0], p[1], p[2], p[3], p[4], p[5], p[6], p[7], p[8], p[9], p[10], p[11]]
    ensures q == p
  {
  }

  /** The orientation after the fourth iteration, written out. */
  lemma AfterFourSteps(p: Pattern)
    ensures AfterSteps(p, 4) == [p[0], p[1], p[2], p[3], p[4], p[5], p[6], p[7], p[8], p[9], p[10], p[11]]
  {
    AfterThreeSteps(p);
    StepSpelled(AfterSteps(p, 3), 3);
  }

  /** The reflected pattern of each iteration, written out. */
  lemma ReflectedSpelled(p: Pattern, rotation: nat)
    requires rotation < 4
    ensures rotation == 0 ==> Tried(p, 1) == [p[2], p[1], p[0], p[11], p[10], p[9], p[8], p[7], p[6], p[5], p[4], p[3]]
    ensures rotation == 1 ==> Tried(p, 3) == [p[9], p[10], p[11], p[0], p[1], p[2], p[3], p[4], p[5], p[6], p[7], p[8]]
    ensures rotation == 2 ==> Tried(p, 5) == [p[8], p[7], p[6], p[5], p[4], p[3], p[2], p[1], p[0], p[11], p[10], p[9]]
    ensures rotation == 3 ==> Tried(p, 7) == [p[3], p[4], p[5], p[6], p[7], p[8], p[9], p[10], p[11], p[0], p[1], p[2]]
  {
    if rotation == 0 {
      assert AfterSteps(p, 0) == p;
      assert Tried(p, 1) == VerticalFlip(p);
    } else if rotation == 1 {
      AfterOneStep(p);
      assert Tried(p, 3) == HorizontalFlip(AfterSteps(p, 1));
    } else if rotation == 2 {
      AfterTwoSteps(p);
      assert Tried(p, 5) == VerticalFlip(AfterSteps(p, 2));
    } else {
      AfterThreeSteps(p);
      assert Tried(p, 7) == HorizontalFlip(AfterSteps(p, 3));
    }
  }

  /** The rotations, written out. */
  lemma TurnsSpelled(p: Pattern, k: nat)
    requires k < 4
    ensures k == 1 ==> Turn(p, 1) == [p[9], p[10], p[11], p[0], p[1], p[2], p[3], p[4], p[5], p[6], p[7], p[8]]
    ensures k == 2 ==> Turn(p, 2) == [p[6], p[7], p[8], p[9], p[10], p[11], p[0], p[1], p[2], p[3], p[4], p[5]]
    ensures k == 3 ==> Turn(p, 3) == [p[3], p[4], p[5], p[6], p[7], p[8], p[9], p[10], p[11], p[0], p[1], p[2]]
  {
    if k == 1 {
      assert Turn(p, 0) == p;
      RotateSpelled(p);
    } else if k == 2 {
      TurnsSpelled(p, 1);
      RotateSpelled(Turn(p, 1));
    } else if k == 3 {
      TurnsSpelled(p, 2);
      RotateSpelled(Turn(p, 2));
    }
  }

  /** The rotations of the vertical mirror image, written out. */
  lemma MirrorTurnsSpelled(p: Pattern, k: nat)
    requires k < 4
    ensures k == 0 ==> Turn(Flip(p, true), 0) == [p[2], p[1], p[0], p[11], p[10], p[9], p[8], p[7], p[6], p[5], p[4], p[3]]
    ensures k == 1 ==> Turn(Flip(p, true), 1) == [p[5], p[4], p[3], p[2], p[1], p[0], p[11], p[10], p[9], p[8], p[7], p[6]]
    ensures k == 2 ==> Turn(Flip(p, true), 2) == [p[8], p[7], p[6], p[5], p[4], p[3], p[2], p[1], p[0], p[11], p[10], p[9]]
    ensures k == 3 ==> Turn(Flip(p, true), 3) == [p[11], p[10], p[9], p[8], p[7], p[6], p[5], p[4], p[3], p[2], p[1], p[0]]
  {
    var m := Flip(p, true);
    assert m == VerticalFlip(p);
    assert Turn(m, 0) == m;
    TurnsSpelled(m, k);
  }

  /** Every pattern the rotation loop hands to the classifier is one of the
      eight orientations of the pushed pattern, and every orientation is
      handed over: the loop tries each symmetry of the square. */
  lemma TriedAreOrientations(p: Pattern)
    ensures {Tried(p, 0), Tried(p, 1), Tried(p, 2), Tried(p, 3),
             Tried(p, 4), Tried(p, 5), Tried(p, 6), Tried(p, 7)} == Orientations(p)
  {
    TriedMatch(p);
  }

  /** Which orientation each tried pattern is. */
  lemma TriedMatch(p: Pattern)
    ensures Tried(p, 0) == Turn(p, 0) && Tried(p, 3) == Turn(p, 1)
    ensures Tried(p, 4) == Turn(p, 2) && Tried(p, 7) == Turn(p, 3)
    ensures Tried(p, 1) == Turn(Flip(p, true), 0) && Tried(p, 2) == Turn(Flip(p, true), 1)
    ensures Tried(p, 5) == Turn(Flip(p, true), 2) && Tried(p, 6) == Turn(Flip(p, true), 3)
  {
    TriedRotations(p);
    TriedReflections(p);
  }

  /** Four of the tried patterns are the rotations of the pushed one. */
  lemma TriedRotations(p: Pattern)
    ensures Tried(p, 0) == Turn(p, 0) && Tried(p, 3) == Turn(p, 1)
    ensures Tried(p, 4) == Turn(p, 2) && Tried(p, 7) == Turn(p, 3)
  {
    assert Tried(p, 0) == Turn(p, 0) by {
      assert AfterSteps(p, 0) == p;
    }
    assert Tried(p, 3) == Turn(p, 1) by {
      ReflectedSpelled(p, 1);
      TurnsSpelled(p, 1);
    }
    assert Tried(p, 4) == Turn(p, 2) by {
      AfterTwoSteps(p);
      TurnsSpelled(p, 2);
    }
    assert Tried(p, 7) == Turn(p, 3) by {
      ReflectedSpelled(p, 3);
      TurnsSpelled(p, 3);
    }
  }

  /** The other four are the rotations of its vertical mirror image. */
  lemma TriedReflections(p: Pattern)
    ensures Tried(p, 1) == Turn(Flip(p, true), 0) && Tried(p, 2) == Turn(Flip(p, true), 1)
    ensures Tried(p, 5) == Turn(Flip(p, true), 2) && Tried(p, 6) == Turn(Flip(p, true), 3)
  {
    assert Tried(p, 1) == Turn(Flip(p, true), 0) by {
      ReflectedSpelled(p, 0);
      MirrorTurnsSpelled(p, 0);
    }
    assert Tried(p, 2) == Turn(Flip(p, true), 1) by {
      AfterOneStep(p);
      MirrorTurnsSpelled(p, 1);
    }
    assert Tried(p, 5) == Turn(Flip(p, true), 2) by {
      ReflectedSpelled(p, 2);
      MirrorTurnsSpelled(p, 2);
    }
    assert Tried(p, 6) == Turn(Flip(p, true), 3) by {
      AfterThreeSteps(p);
      MirrorTurnsSpelled(p, 3);
    }
  }

  /** The next iteration starts from the reflection of the current
      orientation, turned a quarter. */
  lemma NextStart(p: Pattern, rotation: nat)
    ensures AfterSteps(p, rotation + 1) == Rotate(Flip(AfterSteps(p, rotation), rotation % 2 == 0))
  {
  }

  /** Each orientation the loop tries, named by the iteration that tries
      it, is one of the eight orientations of the pushed tile. */
  lemma LoopOrientations(p: Pattern)
    ensures AfterSteps(p, 0) in Orientations(p) && Flip(AfterSteps(p, 0), true) in Orientations(p)
    ensures AfterSteps(p, 1) in Orientations(p) && Flip(AfterSteps(p, 1), false) in Orientations(p)
    ensures AfterSteps(p, 2) in Orientations(p) && Flip(AfterSteps(p, 2), true) in Orientations(p)
    ensures AfterSteps(p, 3) in Orientations(p) && Flip(AfterSteps(p, 3), false) in Orientations(p)
  {
    TriedAreOrientations(p);
    assert Tried(p, 0) == AfterSteps(p, 0) && Tried(p, 1) == Flip(AfterSteps(p, 0), true);
    assert Tried(p, 2) == AfterSteps(p, 1) && Tried(p, 3) == Flip(AfterSteps(p, 1), false);
    assert Tried(p, 4) == AfterSteps(p, 2) && Tried(p, 5) == Flip(AfterSteps(p, 2), true);
    assert Tried(p, 6) == AfterSteps(p, 3) && Tried(p, 7) == Flip(AfterSteps(p, 3), false);
  }

  /** Every orientation the loop starts an iteration from is one of the
      eight orientations of the pushed tile. */
  lemma StartIsOrientation(p: Pattern, rotation: nat)
    requires rotation < 4
    ensures AfterSteps(p, rotation) in Orientations(p)
  {
    var o := Orientations(p);
    LoopOrientations(p);
    var k := rotation;
    assert k == 0 || k == 1 || k == 2 || k == 3;
    assert AfterSteps(p, k) in o by {
      if k == 0 {
        assert AfterSteps(p, 0) in o;
      } else if k == 1 {
        assert AfterSteps(p, 1) in o;
      } else if k == 2 {
        assert AfterSteps(p, 2) in o;
      } else {
        assert AfterSteps(p, 3) in o;
      }
    }
  }

  /** So is every reflection the loop tries. */
  lemma ReflectionIsOrientation(p: Pattern, rotation: nat)
    requires rotation < 4
    ensures Flip(AfterSteps(p, rotation), rotation % 2 == 0) in Orientations(p)
  {
    var o := Orientations(p);
    LoopOrientations(p);
    var k := rotation;
    assert k == 0 || k == 1 || k == 2 || k == 3;
    assert Flip(AfterSteps(p, k), k % 2 == 0) in o by {
      if k == 0 {
        assert Flip(AfterSteps(p, 0), true) in o;
      } else if k == 1 {
        assert Flip(AfterSteps(p, 1), false) in o;
      } else if k == 2 {
        assert Flip(AfterSteps(p, 2), true) in o;
      } else {
        assert Flip(AfterSteps(p, 3), false) in o;
      }
    }
  }
}

=== FILE: tiles.dfy ===
/** Hole patterns of a tile and the two orientation transforms, rotation and
    reflection. Both are fixed permutations of the twelve hole positions. */
module Tiles {
  import opened Sizes

  /** Holes of a tile in its current orientation. Position 0 is the upper-left
      corner and positions run clockwise: 0-2 top edge, 3-5 right edge,
      6-8 bottom edge, 9-11 left edge. */
  type Pattern = p: seq<bool> | |p| == HolePositions witness seq(HolePositions, i => false)

  /** Number of holes of a pattern. */
  function HoleCount(p: Pattern): nat
  {
    multiset(p)[true]
  }

  /** The position whose hole a clockwise quarter turn brings to position i. */
  function TurnSource(i: nat): (j: nat)
    requires i < HolePositions
    ensures j < HolePositions
  {
    if i < 3 then i + 9 else i - 3
  }

  /** The position whose hole a reflection brings to position i: across the
      vertical axis i and 2 - i trade places, across the horizontal axis i and
      8 - i do (both modulo 12). */
  function MirrorSource(i: nat, vertical: bool): (j: nat)
    requires i < HolePositions
    ensures j < HolePositions
  {
    if vertical then (if i <= 2 then 2 - i else 14 - i)
    else (if i <= 8 then 8 - i else 20 - i)
  }

  /** Clockwise quarter turn: the three holes of the left edge move to the top
      edge and every other hole moves three positions on. */
  function Rotate(p: Pattern): (r: Pattern)
    ensures forall i :: 0 <= i < HolePositions ==> r[i] == p[TurnSource(i)]
  {
    p[HolePositions - 3..] + p[..HolePositions - 3]
  }

  /** A quarter turn only moves holes: the multiset of slots, and so the
      number of holes, is unchanged. */
  lemma RotatePermutes(p: Pattern)
    ensures multiset(Rotate(p)) == multiset(p)
    ensures HoleCount(Rotate(p)) == HoleCount(p)
  {
    assert p == p[..HolePositions - 3] + p[HolePositions - 3..];
  }

  /** Exchanges the holes at positions a and b. */
  function Swap(p: Pattern, a: nat, b: nat): (r: Pattern)
    requires a < HolePositions && b < HolePositions
  {
    p[a := p[b]][b := p[a]]
  }

  /** Reflection across the vertical axis (vertical == true) or the horizontal
      axis, as five pairwise exchanges each. */
  function Flip(p: Pattern, vertical: bool): (r: Pattern)
    ensures forall i :: 0 <= i < HolePositions ==> r[i] == p[MirrorSource(i, vertical)]
  {
    if vertical then VerticalFlip(p) else HorizontalFlip(p)
  }

  /** A reflection only moves holes: the multiset of slots, and so the number
      of holes, is unchanged. */
  lemma FlipPermutes(p: Pattern, vertical: bool)
    ensures multiset(Flip(p, vertical)) == multiset(p)
    ensures HoleCount(Flip(p, vertical)) == HoleCount(p)
  {
    if vertical {
      VerticalFlipPermutes(p);
    } else {
      HorizontalFlipPermutes(p);
    }
  }

  /** Left and right edges trade places; positions 1 and 7 stay. */
  function VerticalFlip(p: Pattern): (r: Pattern)
    ensures r == [p[2], p[1], p[0], p[11], p[10], p[9], p[8], p[7], p[6], p[5], p[4], p[3]]
    ensures forall i :: 0 <= i < HolePositions ==> r[i] == p[MirrorSource(i, true)]
  {
    var q := Swap(Swap(Swap(Swap(Swap(p, 0, 2), 3, 11), 4, 10), 5, 9), 6, 8);
    VerticalSwapsMirror(p, q);
    q
  }

  lemma VerticalFlipPermutes(p: Pattern)
    ensures multiset(VerticalFlip(p)) == multiset(p)
  {
    SwapsPermute(p, [0, 3, 4, 5, 6], [2, 11, 10, 9, 8]);
  }

  /** Top and bottom edges trade places; positions 4 and 10 stay. */
  function HorizontalFlip(p: Pattern): (r: Pattern)
    ensures r == [p[8], p[7], p[6], p[5], p[4], p[3], p[2], p[1], p[0], p[11], p[10], p[9]]
    ensures forall i :: 0 <= i < HolePositions ==> r[i] == p[MirrorSource(i, false)]
  {
    var q := Swap(Swap(Swap(Swap(Swap(p, 0, 8), 1, 7), 2, 6), 3, 5), 9, 11);
    HorizontalSwapsMirror(p, q);
    q
  }

  lemma HorizontalFlipPermutes(p: Pattern)
    ensures multiset(HorizontalFlip(p)) == multiset(p)
  {
    SwapsPermute(p, [0, 1, 2, 3, 9], [8, 7, 6, 5, 11]);
  }

  /** An exchange keeps the holes of a pattern, only moving them. */
  lemma SwapPermutes(p: Pattern, a: nat, b: nat)
    requires a < HolePositions && b < HolePositions
    ensures multiset(Swap(p, a, b)) == multiset(p)
  {
    var q := p[a := p[b]];
    assert multiset(q) == multiset(p) - multiset{p[a]} + multiset{p[b]};
  }

  /** Five exchanges in a row keep the holes of a pattern. */
  lemma SwapsPermute(p: Pattern, lo: seq<nat>, hi: seq<nat>)
    requires |lo| == 5 && |hi| == 5
    requires forall k :: 0 <= k < 5 ==> lo[k] < HolePositions && hi[k] < HolePositions
    ensures multiset(Swap(Swap(Swap(Swap(Swap(p, lo[0], hi[0]), lo[1], hi[1]), lo[2], hi[2]), lo[3], hi[3]), lo[4], hi[4]))
            == multiset(p)
  {
    var a := Swap(p, lo[0], hi[0]);
    SwapPermutes(p, lo[0], hi[0]);
    var b := Swap(a, lo[1], hi[1]);
    SwapPermutes(a, lo[1], hi[1]);
    var c := Swap(b, lo[2], hi[2]);
    SwapPermutes(b, lo[2], hi[2]);
    var d := Swap(c, lo[3], hi[3]);
    SwapPermutes(c, lo[3], hi[3]);
    SwapPermutes(d, lo[4], hi[4]);
  }

  /** The five exchanges of the vertical reflection pair every position with
      its mirror image. */
  lemma VerticalSwapsMirror(p: Pattern, q: Pattern)
    requires q == Swap(Swap(Swap(Swap(Swap(p, 0, 2), 3, 11), 4, 10), 5, 9), 6, 8)
    ensures q == [p[2], p[1], p[0], p[11], p[10], p[9], p[8], p[7], p[6], p[5], p[4], p[3]]
    ensures forall i :: 0 <= i < HolePositions ==> q[i] == p[MirrorSource(i, true)]
  {
  }

  /** The five exchanges of the horizontal reflection pair every position
      with its mirror image. */
  lemma HorizontalSwapsMirror(p: Pattern, q: Pattern)
    requires q == Swap(Swap(Swap(Swap(Swap(p, 0, 8), 1, 7), 2, 6), 3, 5), 9, 11)
    ensures q == [p[8], p[7], p[6], p[5], p[4], p[3], p[2], p[1], p[0], p[11], p[10], p[9]]
    ensures forall i :: 0 <= i < HolePositions ==> q[i] == p[MirrorSource(i, false)]
  {
  }

  /** Four quarter turns bring every hole back to where it started. */
  lemma {:induction false} FourTurnsIdentity(p: Pattern)
    ensures Rotate(Rotate(Rotate(Rotate(p)))) == p
  {
    var a := Rotate(p);
    var b := Rotate(a);
    var c := Rotate(b);
    var e := Rotate(c);
    forall i | 0 <= i < HolePositions
      ensures e[i] == p[i]
    {
      assert TurnSource(TurnSource(TurnSource(TurnSource(i)))) == i;
    }
  }

  /** Reflecting twice across the same axis restores the pattern. */
  lemma {:induction false} FlipInvolution(p: Pattern, vertical: bool)
    ensures Flip(Flip(p, vertical), vertical) == p
  {
    var q := Flip(p, vertical);
    if vertical {
      assert q == VerticalFlip(p);
      assert Flip(q, vertical) == VerticalFlip(q);
    } else {
      assert q == HorizontalFlip(p);
      assert Flip(q, vertical) == HorizontalFlip(q);
    }
  }

  /** A quarter turn carries the hole at position i to position i + 3
      (modulo 12). */
  lemma RotateMovesHole(p: Pattern, i: nat)
    requires i < HolePositions
    ensures Rotate(p)[(i + 3) % HolePositions] == p[i]
  {
    assert TurnSource((i + 3) % HolePositions) == i;
  }

  /** Rotate written out position by position. */
  lemma RotateSpelled(p: Pattern)
    ensures Rotate(p) == [p[9], p[10], p[11], p[0], p[1], p[2], p[3], p[4], p[5], p[6], p[7], p[8]]
  {
  }

  /** A reflection leaves exactly two positions in place: 1 and 7 for the
      vertical axis, 4 and 10 for the horizontal one. */
  lemma FlipFixedPositions(i: nat, vertical: bool)
    requires i < HolePositions
    ensures MirrorSource(i, vertical) == i <==>
              if vertical then i == 1 || i == 7 else i == 4 || i == 10
  {
  }

  /** The position maps in modular form: a quarter turn reads position
      i + 9 (mod 12), the vertical reflection reads 2 - i and the horizontal
      one 8 - i. */
  lemma SourcesModular(i: nat)
    requires i < HolePositions
    ensures TurnSource(i) == (i + 9) % HolePositions
    ensures MirrorSource(i, true) == (2 - i) % HolePositions
    ensures MirrorSource(i, false) == (8 - i) % HolePositions
  {
  }
}

=== FILE: validity.dfy ===
/** The classifier that decides, after every tile push, reorientation and
    peg placement, whether the search may go on (VALID), must back off
    (INVALID) or has finished (SOLVED). Only the top layer is inspected:
    lower layers were inspected when they were completed. */
module Validity {
  import opened Sizes
  import opened Tiles
  import opened Coverage

  datatype Status = Invalid | Valid | Solved

  /** No peg passes through a position where the tile has no hole. */
  predicate Fits(p: Pattern, row: seq<nat>)
    requires |row| == HolePositions
  {
    forall j :: 0 <= j < HolePositions ==> !p[j] ==> row[j] == 0
  }

  /** Every hole of the tile has a peg through it. */
  predicate AllFilled(p: Pattern, row: seq<nat>)
    requires |row| == HolePositions
  {
    forall j :: 0 <= j < HolePositions ==> p[j] ==> row[j] != 0
  }

  /** A layer is complete when pegs pass through exactly its holes. */
  predicate Complete(p: Pattern, row: seq<nat>)
    requires |row| == HolePositions
  {
    forall j :: 0 <= j < HolePositions ==> (p[j] <==> row[j] != 0)
  }

  /** No peg passes through the layer. */
  predicate RowEmpty(row: seq<nat>)
    requires |row| == HolePositions
  {
    forall j :: 0 <= j < HolePositions ==> row[j] == 0
  }

  /** Classifies the obelisk of the given size whose top tile shows pattern
      top. onPegs tells whether the caller is the peg search (true) or the
      tile search (false).
      - A peg through a position where the top tile has no hole: INVALID.
      - Every hole covered at full height: SOLVED.
      - Every hole covered below full height: VALID exactly when some peg
        already reaches into the next layer, so the stack stays pinned.
      - Some hole uncovered: INVALID for the peg search, which has run out
        of placements, and VALID for the tile search, which hands over to
        the peg search. */
  method CheckValid(top: Pattern, m: Matrix, size: nat, onPegs: bool) returns (st: Status)
    requires Shaped(m) && 1 <= size <= TotalTiles
    ensures st == Solved <==>
              Fits(top, m[size - 1]) && AllFilled(top, m[size - 1]) && size == TotalTiles
    ensures st == Valid <==>
              Fits(top, m[size - 1]) &&
              if AllFilled(top, m[size - 1]) then size < TotalTiles && !RowEmpty(m[size]) else !onPegs
    ensures !Fits(top, m[size - 1]) ==> st == Invalid
  {
    var row := m[size - 1];
    var allFilled := true;
    var i := 0;
    while i < HolePositions
      invariant 0 <= i <= HolePositions
      invariant forall j :: 0 <= j < i ==> !top[j] ==> row[j] == 0
      invariant allFilled <==> forall j :: 0 <= j < i ==> top[j] ==> row[j] != 0
    {
      if !top[i] && row[i] != 0 {
        return Invalid;
      }
      if top[i] {
        allFilled := allFilled && row[i] != 0;
      }
      i := i + 1;
    }

    if allFilled {
      if size == TotalTiles {
        return Solved;
      } else {
        var nextLayerEmpty := true;
        var k := 0;
        while k < HolePositions
          invariant 0 <= k <= HolePositions
          invariant nextLayerEmpty <==> forall j :: 0 <= j < k ==> m[size][j] == 0
        {
          nextLayerEmpty := nextLayerEmpty && m[size][k] == 0;
          k := k + 1;
        }
        return if nextLayerEmpty then Invalid else Valid;
      }
    } else {
      return if onPegs then Invalid else Valid;
    }
  }
}
